=== FILE: README.md ===
# Movie catalog: access control, stores and catalog rules

A Dafny model of the business rules of the platzi-play movie catalog service.
The service is a Spring Boot application with user accounts, JWT bearer tokens,
a role-gated REST API, movies with reviews, and import from The Movie Database
(TMDB). The model covers the following.

- **Review store** (`review_repository.dfy`, `review_entity.dfy`). A map from
  review id to review. Create checks the user, then the movie, then the
  (user, movie) pair. Update and delete check that the review exists, then that
  the caller owns it. Update is partial: an absent field keeps its stored value.
  The entity hook checks that the rating is in 1..5. The proofs show that at
  most one review exists per (user, movie) pair after every operation.
- **Accounts** (`user_entity.dfy`, `user_repository.dfy`, `user_service.dfy`).
  A map from id to account. Username and email are unique columns. Lookups
  return "no row" when nothing matches. The repository `update` copies exactly
  six fields. The profile edit changes the email only when the new value is
  present and different, and checks that it is free.
- **Authentication** (`auth_service.dfy`, `jwt_service.dfy`).
  - Registration checks the password confirmation, then the username, then the
    email. Login reports every authentication failure as invalid credentials.
  - A token holds the claims subject, issued-at and expiry. Expiry is stored in
    NumericDate seconds, as section 4.1.4 of RFC 7519 requires. The HS256
    signature (section 3.2 of RFC 7518) is an uninterpreted MAC. A token is
    valid when its subject matches and its expiry is not before now.
- **Route authorization** (`security_config.dfy`).
  - The ordered, first-match request-matcher table, with the
    "any other request needs a login" fallback.
  - The access that every controller route receives.
  - The 401/403 decision for a principal.
  - The username-or-email user lookup.
- **Movie catalog** (`movie_entity.dfy`, `movie_repository.dfy`,
  `movie_service.dfy`, `state_mapper.dfy`).
  - Title uniqueness on save and update, and "D" as the saved state. A saved
    record whose id names a stored movie overwrites that movie.
  - Review-count enrichment.
  - Import by TMDB id, which is idempotent.
  - The case-insensitive Spanish genre table, and the TMDB-to-movie defaults.
- **Small mappings** (`tmdb_service.dfy`, `rest_exception_handler.dfy`).
  - Page-number defaulting and image-URL building.
  - The mapping from exception to HTTP status and error code.

Support modules:

- `wrappers.dfy`: Option and Result.
- `exceptions.dfy`: the failure kinds.
- `tables.dfy`: the single-result rule of Spring Data derived queries. No match
  gives no row, one match gives that row, and several matches fail.
- `java_lang.dfy`: Java's truncating division and `toLowerCase` /
  `equalsIgnoreCase` on characters.
- `java_time.dfy`: ISO `yyyy-MM-dd` date parsing and formatting.

How the model is built:

- Stores are immutable maps with an identity counter. Every operation is a
  function that returns `Result`, and the order of its error checks follows the
  Java code.
- Clock readings, the password encoder, the password matcher, the MAC and the
  TMDB HTTP answer are all parameters.

Where the service's documented design and its code disagree, the model follows the
code:

- Only `POST /movies` on the exact collection path needs ADMIN. Every other
  POST below `/movies` (suggest, import-from-tmdb) needs only a login.
- A token checked at exactly its expiry instant is still valid. The code tests
  `exp.before(now)`, not `now >= exp`.
- The token subject is the username.
- Review creation checks the user before the movie.
- Exception mapping differs from the documented design, which expects 409 and 403.
  The handler answers 500 "unknown-error" for a duplicate account and for
  every review error.
- Registration persists the new account with email already verified.
- The repository `update` does not copy the last-access time, yet
  registration and login do persist it. The account they stamp is the entity
  they loaded or saved in the same request, so it is still managed, and the
  write-back flushes the whole entity. Registration answers with the DTO
  taken before the stamp; login answers with the one read before it.

## Model

| member | source | states |
|---|---|---|
| ReviewEntity.ValidateRating | src/main/java/com/platzi/play/persistence/entity/ReviewEntity.java:47-54 | a rating is accepted exactly when it is present and within 1..5, and is kept as given; otherwise an invalid-argument failure |
| ReviewRepository.Create | src/main/java/com/platzi/play/persistence/ReviewEntityRepository.java:42-65 | missing user fails first, then missing movie, then an existing (user, movie) review; success iff all three pass and the rating is valid; the new row holds exactly the inputs under a fresh id, nothing else changes, and one-review-per-pair is preserved |
| ReviewRepository.Update | src/main/java/com/platzi/play/persistence/ReviewEntityRepository.java:67-87 | missing review fails before a foreign caller; on success only that review changes, user, movie and creation time are kept, rating and comment are overwritten only when supplied, and the update time becomes now exactly when rating or comment changed; for the owner it succeeds iff the supplied rating is absent or in range; preserves one-review-per-pair |
| ReviewRepository.Delete | src/main/java/com/platzi/play/persistence/ReviewEntityRepository.java:89-100 | missing review fails before a foreign caller; success iff the caller owns it; exactly that review is removed and the invariant is kept |
| ReviewRepository.GetById | src/main/java/com/platzi/play/persistence/ReviewEntityRepository.java:102-107 | fails with ReviewNotFound exactly when the id is absent, otherwise returns the stored review |
| ReviewRepository.ListingMatchesCount | src/main/java/com/platzi/play/persistence/ReviewEntityRepository.java:109-113 | the movie's review listing has exactly as many entries as the review count the catalog reports for it |
| ReviewRepository.CreateListsForAuthor | src/main/java/com/platzi/play/persistence/ReviewEntityRepository.java:115-119 | after a create, the author's listing is the old listing plus exactly the new review, and every other user's listing is unchanged |
| ReviewRepository.GetByUserIdAndMovieId | src/main/java/com/platzi/play/persistence/ReviewEntityRepository.java:121-132 | a found review has that user and movie; ReviewNotFound exactly when the existence check is false; under the invariant it succeeds iff the pair exists |
| ReviewRepository.AtMostOnePerPair | src/main/java/com/platzi/play/persistence/ReviewEntityRepository.java:51-54 | under the pair-uniqueness invariant at most one review id matches a (user, movie) pair |
| ReviewRepository.CreateThenFind | src/main/java/com/platzi/play/persistence/ReviewEntityRepository.java:56-64 | after a successful create, the pair lookup returns exactly the created review |
| ReviewRepository.CreateTwiceRefused | src/main/java/com/platzi/play/persistence/ReviewEntityRepository.java:51-54 | repeating a successful create for the same pair fails with ReviewAlreadyExists |
| ReviewRepository.DeleteUndoesCreate | src/main/java/com/platzi/play/persistence/ReviewEntityRepository.java:89-100 | the author deleting a just-created review restores the original rows |
| ReviewRepository.CreateCountsOneMore | src/main/java/com/platzi/play/persistence/ReviewEntityRepository.java:139-142 | a create raises the review count of its movie by one and leaves every other movie's count alone |
| ReviewRepository.DeleteCountsOneLess | src/main/java/com/platzi/play/persistence/ReviewEntityRepository.java:139-142 | a delete lowers the count of the review's movie by one and leaves the others alone |
| ReviewRepository.UpdateKeepsCounts | src/main/java/com/platzi/play/persistence/ReviewEntityRepository.java:77-85 | an update changes no movie's review count |
| UserEntity.NewEntity | src/main/java/com/platzi/play/persistence/entity/UserEntity.java:36-50 | a fresh entity has role USER, is active, is not email-verified and has no timestamps |
| UserEntity.OnCreate | src/main/java/com/platzi/play/persistence/entity/UserEntity.java:88-91 | persisting sets the creation time to the clock reading and changes nothing else |
| UserEntity.StatusChecksAreEnabled | src/main/java/com/platzi/play/persistence/entity/UserEntity.java:68-86 | the four account status checks pass iff the account is active and email-verified (the expiry and lock flags are always true) |
| UserEntity.Authorities | src/main/java/com/platzi/play/persistence/entity/UserEntity.java:53-56 | exactly one authority, ROLE_ followed by the role name |
| UserEntity.AuthoritiesNameRole | src/main/java/com/platzi/play/persistence/entity/UserEntity.java:53-56 | ROLE_ADMIN is granted iff the role is ADMIN, ROLE_USER iff it is USER |
| UserEntity.NewEntityDisabled | src/main/java/com/platzi/play/persistence/entity/UserEntity.java:47-50 | a default entity fails the status checks, since its email is unverified |
| UserRepository.GetById | src/main/java/com/platzi/play/persistence/UserEntityRepository.java:29-33 | no row exactly when the id is absent, otherwise that row's DTO |
| UserRepository.GetByUsername | src/main/java/com/platzi/play/persistence/UserEntityRepository.java:35-39 | no row exactly when no account has that username; a found DTO is the only account with that username, as stored; with unique columns it never fails |
| UserRepository.GetByEmail | src/main/java/com/platzi/play/persistence/UserEntityRepository.java:41-45 | no row exactly when no account has that email; a found DTO is the only account with that email, as stored; with unique columns it never fails |
| UserRepository.GetEntityByUsernameOrEmail | src/main/java/com/platzi/play/persistence/UserEntityRepository.java:92-95 | no row exactly when neither a username nor an email equals the value; a found account is the only one whose username or email matches; the query fails with IncorrectResultSize exactly when two or more accounts match |
| UserRepository.SingleMatchFound | src/main/java/com/platzi/play/persistence/UserEntityRepository.java:92-95 | when exactly one account has the value as username or email, that account is returned |
| UserRepository.UniqueKeys | src/main/java/com/platzi/play/persistence/entity/UserEntity.java:24-28 | under the unique-column invariant at most one account has a given username and at most one a given email |
| UserRepository.Put | src/main/java/com/platzi/play/persistence/entity/UserEntity.java:24-28 | a write fails with a constraint violation exactly when another row holds the username or email; otherwise only that row changes and uniqueness is kept |
| UserRepository.PutSameKeys | src/main/java/com/platzi/play/persistence/entity/UserEntity.java:24-28 | rewriting a row without changing its username or email never clashes and keeps both columns unique |
| UserRepository.Insert | src/main/java/com/platzi/play/domain/service/AuthService.java:77 | with unique columns, an insert fails iff the username or email is taken; a success stores the account under a fresh id with its creation time set and keeps the invariant |
| UserRepository.Update | src/main/java/com/platzi/play/persistence/UserEntityRepository.java:59-75 | an unknown id writes nothing and yields no row; for a stored id the write fails with a constraint violation exactly when another account holds the record's username or email, and otherwise exactly username, email, full name, role, active and email-verified are overwritten, while password and timestamps are kept |
| UserRepository.UpdateWithOwnValuesChangesNothing | src/main/java/com/platzi/play/persistence/UserEntityRepository.java:66-74 | writing back a detached copy of an account's own DTO with only the last access changed leaves the table identical, since last access is not copied |
| UserRepository.ExistsAgreesWithLookup | src/main/java/com/platzi/play/persistence/UserEntityRepository.java:82-90 | the existence checks hold iff the corresponding lookup finds a row |
| UserService.GetCurrentUser | src/main/java/com/platzi/play/domain/service/UserService.java:35-41 | UserNotFound exactly when no account has the username; a result has that username |
| UserService.GetUserById | src/main/java/com/platzi/play/domain/service/UserService.java:43-49 | UserNotFound exactly when the id is absent, otherwise that account's DTO |
| UserService.Edited | src/main/java/com/platzi/play/domain/service/UserService.java:56-65 | the email changes only when a different one is supplied, the full name only when one is supplied, and nothing else changes |
| UserService.UpdateProfile | src/main/java/com/platzi/play/domain/service/UserService.java:51-69 | an unknown username fails with UserNotFound; a new, taken email fails with UserAlreadyExists; otherwise exactly the edited account is stored |
| UserService.UpdateProfileSucceedsIff | src/main/java/com/platzi/play/domain/service/UserService.java:51-69 | with unique columns the edit succeeds iff the user exists and any new email is free; resubmitting the current email never fails; uniqueness is preserved |
| UserService.GetUserReviews | src/main/java/com/platzi/play/domain/service/UserService.java:71-77 | UserNotFound exactly when the user id is absent, otherwise exactly that user's reviews |
| UserService.FiledReviewIsListed | src/main/java/com/platzi/play/domain/service/UserService.java:71-77 | a review a user files appears in that user's listing under its new id, beside exactly the reviews listed before |
| AuthService.NewAccount | src/main/java/com/platzi/play/domain/service/AuthService.java:66-74 | the new account carries the request's names, the encoded password, role USER, and is active and email-verified |
| AuthService.SaveStamped | src/main/java/com/platzi/play/domain/service/AuthService.java:83-85 | writing back a managed account stamped with now stores it with that last access; a constraint violation exactly when another row holds its username or email; an unknown id writes nothing |
| AuthService.Register | src/main/java/com/platzi/play/domain/service/AuthService.java:51-88 | password mismatch fails first, then a taken username, then a taken email; success stores exactly the new account under a fresh id with its creation time and the last-access stamp, answers with a Bearer token signed for the username at the issue time, and with the DTO taken before the stamp |
| AuthService.RegisterSucceedsIff | src/main/java/com/platzi/play/domain/service/AuthService.java:51-88 | with unique columns, registration succeeds iff the passwords match and both username and email are free |
| AuthService.RegisterResponseReadsBack | src/main/java/com/platzi/play/domain/service/AuthService.java:51-88 | the token of a successful registration names the returned user, is valid for that user up to its expiry, and the returned id holds that username in the stored table |
| AuthService.CreateAuthResponse | src/main/java/com/platzi/play/domain/service/AuthService.java:133-149 | token type Bearer, expiry in configured seconds, user info copied field by field from the DTO |
| AuthService.Authenticate | src/main/java/com/platzi/play/web/config/SecurityConfig.java:101-110 | a principal is found iff the username-or-email lookup succeeds, the account passes the status checks and the password matches |
| AuthService.LoginWith | src/main/java/com/platzi/play/domain/service/AuthService.java:95-125 | no principal gives invalid credentials, a principal whose id no longer resolves gives UserNotFound; otherwise the table gains the last-access stamp on that account only, and the answer is a token built for the principal's username with the DTO read before the stamp |
| AuthService.LoginNeverUserNotFound | src/main/java/com/platzi/play/domain/service/AuthService.java:107-111 | through the real authentication step the UserNotFound branch cannot be reached |
| AuthService.LoginSucceedsIff | src/main/java/com/platzi/play/domain/service/AuthService.java:95-125 | with unique columns login succeeds iff the account is found, enabled and the password matches; every failure is invalid credentials; on success only the account's last access changes, the table stays well-formed, and the token is the one built for the stored username, whose subject reads back as the returned user |
| JwtService.NumericDate | src/main/java/com/platzi/play/domain/service/JwtService.java:63-64 | a millisecond instant becomes whole seconds rounded down |
| JwtService.BuildToken | src/main/java/com/platzi/play/domain/service/JwtService.java:54-67 | the subject is the username, issued-at and expiry are the clock readings in seconds (expiry offset by the lifetime), signed with the configured key |
| JwtService.ExtractAllClaims | src/main/java/com/platzi/play/domain/service/JwtService.java:123-130 | succeeds exactly when the signature verifies under the key, yielding the token's claims, otherwise InvalidSignature |
| JwtService.ExtractUsername | src/main/java/com/platzi/play/domain/service/JwtService.java:74-76 | succeeds with the subject exactly when the signature verifies |
| JwtService.ExtractExpiration | src/main/java/com/platzi/play/domain/service/JwtService.java:114-116 | succeeds with the expiry in milliseconds exactly when the signature verifies |
| JwtService.IsTokenExpired | src/main/java/com/platzi/play/domain/service/JwtService.java:105-107 | expired iff the expiry instant is strictly before now |
| JwtService.IsTokenValid | src/main/java/com/platzi/play/domain/service/JwtService.java:95-98 | fails iff the signature does not verify; otherwise valid iff the subject equals the username and now is not after the expiry |
| JwtService.ExpirationTimeInSeconds | src/main/java/com/platzi/play/domain/service/JwtService.java:145-147 | the lifetime in whole seconds rounded down, 3600 for the default lifetime |
| JwtService.ExtractUsernameRoundTrip | src/main/java/com/platzi/play/domain/service/JwtService.java:74-76 | a token built under a key yields its username back under the same key |
| JwtService.OtherKeyRejects | src/main/java/com/platzi/play/domain/service/JwtService.java:123-130 | a token whose MAC differs under another key cannot be read: InvalidSignature |
| JwtService.ExpiryAfterIssue | src/main/java/com/platzi/play/domain/service/JwtService.java:63-64 | when the expiry clock reading is not before the issue reading, expiry is at least issued-at plus the lifetime in seconds |
| JwtService.FreshTokenValidity | src/main/java/com/platzi/play/domain/service/JwtService.java:95-107 | a fresh token is valid for its own user until a second before its nominal expiry and at exactly its exp instant, and invalid at every later instant |
| SecurityConfig.StartsWithIsPrefix | src/main/java/com/platzi/play/web/config/SecurityConfig.java:43 | a path lies below a pattern prefix iff the prefix's segments begin the path |
| SecurityConfig.FirstMatch | src/main/java/com/platzi/play/web/config/SecurityConfig.java:41-67 | returns the first rule matching the request, with no earlier rule matching, or none when no rule matches |
| SecurityConfig.RouteRequirements | src/main/java/com/platzi/play/web/config/SecurityConfig.java:41-67 | every controller route receives its expected access: public auth and reads, ADMIN movie create/edit/delete, login for suggest, import, review writes, TMDB and profile routes |
| SecurityConfig.AuthIsPublic | src/main/java/com/platzi/play/web/config/SecurityConfig.java:43 | every method below /auth is public |
| SecurityConfig.MovieReadsArePublic | src/main/java/com/platzi/play/web/config/SecurityConfig.java:53 | GET on /movies or below it is public |
| SecurityConfig.MovieWritesNeedAdmin | src/main/java/com/platzi/play/web/config/SecurityConfig.java:54-56 | POST on exactly /movies and PUT or DELETE below /movies need ADMIN |
| SecurityConfig.PostsBelowMoviesNeedOnlyLogin | src/main/java/com/platzi/play/web/config/SecurityConfig.java:54-66 | any POST strictly below /movies needs only a login, not ADMIN |
| SecurityConfig.ReviewAccess | src/main/java/com/platzi/play/web/config/SecurityConfig.java:60-63 | GET below /reviews is public; POST /reviews and PUT or DELETE below it need a login |
| SecurityConfig.UnlistedPathsNeedLogin | src/main/java/com/platzi/play/web/config/SecurityConfig.java:66 | a path outside every listed prefix needs a login |
| SecurityConfig.Authorize | src/main/java/com/platzi/play/web/config/SecurityConfig.java:41-67 | permit iff the route is public or a principal with the required role is present; 401 iff it is not public and nobody is logged in; 403 iff the role is wrong |
| SecurityConfig.AdminRoutesGate | src/main/java/com/platzi/play/web/config/SecurityConfig.java:54-56 | on the ADMIN routes a USER is forbidden, an ADMIN permitted, and an anonymous caller unauthorized |
| SecurityConfig.LoadUserByUsername | src/main/java/com/platzi/play/web/config/SecurityConfig.java:101-110 | UsernameNotFound exactly when neither a username nor an email matches; IncorrectResultSize exactly when two or more accounts match; a loaded account is the only match |
| SecurityConfig.SingleMatchLoaded | src/main/java/com/platzi/play/web/config/SecurityConfig.java:101-110 | the one account whose username or email is the login name is the one loaded |
| MovieRepository.Enrich | src/main/java/com/platzi/play/persistence/MovieEntityRepository.java:50-67 | the review count is the number of reviews of that movie, and the availability follows the stored state |
| MovieRepository.GetById | src/main/java/com/platzi/play/persistence/MovieEntityRepository.java:37-42 | no movie exactly when the id is absent, otherwise the enriched movie |
| MovieRepository.FindByTmdbId | src/main/java/com/platzi/play/persistence/crud/CrudMovieEntity.java:13 | no movie exactly when none was imported from that TMDB id; IncorrectResultSize exactly when two or more were; otherwise the one such movie, enriched |
| MovieRepository.Save | src/main/java/com/platzi/play/persistence/MovieEntityRepository.java:69-79 | a taken title fails with MovieAlreadyExists, then a null title with the NOT NULL violation; succeeds iff the title is present and free; a record whose id names a stored movie overwrites that row in place, otherwise the movie is added under a fresh id; the row has state D, the result is that row enriched, and titles stay unique |
| MovieRepository.Update | src/main/java/com/platzi/play/persistence/MovieEntityRepository.java:81-102 | unknown id fails with MovieNotFound; a new title held by another movie fails with MovieTitleAlreadyExists; a null title is refused by the NOT NULL column; succeeds exactly when the movie exists and the title is present and either its own or held by no other movie, and then only title and release date of that movie change and titles stay unique |
| MovieRepository.TitleConflictIsAnyHolder | src/main/java/com/platzi/play/persistence/MovieEntityRepository.java:90-95 | a different title already held by another movie always gives the title conflict |
| MovieRepository.OwnTitleAccepted | src/main/java/com/platzi/play/persistence/MovieEntityRepository.java:90 | resubmitting a movie's current title never gives a title conflict |
| MovieRepository.UpdateWithoutId | src/main/java/com/platzi/play/persistence/MovieEntityRepository.java:104-107 | the overload without an id always yields no movie |
| MovieRepository.Delete | src/main/java/com/platzi/play/persistence/MovieEntityRepository.java:109-118 | MovieNotFound exactly when the id is absent, a foreign-key violation when reviews still reference the movie; succeeds iff the movie exists and has no reviews, and then exactly that movie is removed |
| MovieRepository.StoredMoviesAvailable | src/main/java/com/platzi/play/persistence/MovieEntityRepository.java:76 | every movie in a well-formed catalog reads back as available |
| MovieRepository.SaveThenGetThenDelete | src/main/java/com/platzi/play/persistence/MovieEntityRepository.java:69-118 | a saved movie is found under the id it was handed out with as the returned DTO; when the save added a row, deleting it restores the catalog rows if no review references the new id, and is refused by the foreign key otherwise |
| MovieRepository.SaveWithStoredIdReplaces | src/main/java/com/platzi/play/persistence/MovieEntityRepository.java:75-77 | a save naming a stored movie's id adds no row, keeps the identity counter, gives that row the new title and leaves every other movie untouched |
| MovieRepository.SaveTwiceRefused | src/main/java/com/platzi/play/persistence/MovieEntityRepository.java:71-73 | saving the same movie twice fails with MovieAlreadyExists |
| MovieService.MapTmdbGenre | src/main/java/com/platzi/play/domain/service/MovieService.java:103-122 | a named genre is chosen only for a name whose lower case is its Spanish name; OTHER for a missing name or one matching no genre |
| MovieService.MapTmdbGenreInverse | src/main/java/com/platzi/play/domain/service/MovieService.java:106-120 | any name whose lower case is a genre's Spanish name maps to that genre |
| MovieService.SpanishNamesRoundTrip | src/main/java/com/platzi/play/domain/service/MovieService.java:106-120 | every genre other than OTHER is recovered from its own Spanish name |
| MovieService.FirstGenre | src/main/java/com/platzi/play/domain/service/MovieService.java:66-69 | OTHER for a missing or empty genre list, otherwise the mapping of the first genre's name |
| MovieService.ReleaseDate | src/main/java/com/platzi/play/domain/service/MovieService.java:71-77 | a missing or empty date gives no date, otherwise the ISO parse, with a failed parse giving no date |
| MovieService.MapTmdbToMovie | src/main/java/com/platzi/play/domain/service/MovieService.java:65-101 | no id, available, review count 0, runtime or 0 as duration, first-genre mapping, parsed date, and the TMDB id, title and image URLs copied |
| MovieService.ImportFromTmdb | src/main/java/com/platzi/play/domain/service/MovieService.java:48-59 | a movie already holding the TMDB id is returned with nothing fetched or saved; otherwise the fetched details are mapped and saved once |
| MovieService.ImportIdempotent | src/main/java/com/platzi/play/domain/service/MovieService.java:48-59 | importing the same TMDB id again returns the same movie and leaves the catalog unchanged |
| MovieService.ImportReadsBack | src/main/java/com/platzi/play/domain/service/MovieService.java:48-59 | a fresh import reads back by its new id as the returned movie: available, counting the reviews filed under that id, with TMDB's title, id, runtime or 0, first genre and built image URLs |
| StateMapper.StateToBoolean | src/main/java/com/platzi/play/persistence/mapper/StateMapper.java:8-11 | true exactly for the states D and d; false for a missing state and every other string |
| StateMapper.StateDIgnoringCase | src/main/java/com/platzi/play/persistence/mapper/StateMapper.java:10 | a string equals D ignoring case iff it is D or d |
| TmdbService.NormalizePage | src/main/java/com/platzi/play/domain/service/TmdbService.java:42-44 | a missing page or one below 1 becomes 1, any other page is kept |
| TmdbService.NormalizePageIdempotent | src/main/java/com/platzi/play/domain/service/TmdbService.java:42-44 | normalising a normalised page changes nothing |
| TmdbService.SetImageUrls | src/main/java/com/platzi/play/domain/service/TmdbService.java:192-199 | a present poster path gives base + /w500 + path, a present backdrop path gives base + /original + path, a missing path leaves its URL alone |
| TmdbService.SetImageUrlsIdempotent | src/main/java/com/platzi/play/domain/service/TmdbService.java:192-199 | building the URLs twice gives the same images as once |
| TmdbService.PosterUrlEndsWithPath | src/main/java/com/platzi/play/domain/service/TmdbService.java:193-195 | the poster URL starts with the base and size and ends with the poster path |
| TmdbService.SetAllImageUrls | src/main/java/com/platzi/play/domain/service/TmdbService.java:55-57 | every result gets its image URLs built, in order, nothing else changes |
| TmdbService.DecorateResponse | src/main/java/com/platzi/play/domain/service/TmdbService.java:53-59 | a missing response or result list is returned untouched; otherwise only the results' image URLs change, and every result is left as it is by a second decoration |
| TmdbService.GetMovieDetails | src/main/java/com/platzi/play/domain/service/TmdbService.java:68-81 | a missing answer stays missing; otherwise only the image URLs of the details are built |
| TmdbService.GetMovieDetailsIdempotent | src/main/java/com/platzi/play/domain/service/TmdbService.java:68-81 | building the details' image URLs a second time with the same base changes nothing |
| RestExceptionHandler.Handle | src/main/java/com/platzi/play/web/exception/RestExceptionHandler.java:17-50 | movie exists and title conflict give 400, movie missing 404, validation 400 with one entry per field error in order, anything else 500 unknown-error |
| RestExceptionHandler.StatusClasses | src/main/java/com/platzi/play/web/exception/RestExceptionHandler.java:17-50 | the status is 400, 404 or 500; 500 exactly for failures without their own handler; 404 exactly for a missing movie |
| RestExceptionHandler.DomainErrorsAreUnknown | src/main/java/com/platzi/play/web/exception/RestExceptionHandler.java:46-50 | duplicate, missing and foreign reviews, a missing user, a taken account and a foreign-key refusal all answer 500 unknown-error |
| JavaLang.Div | src/main/java/com/platzi/play/domain/service/JwtService.java:146 | Java long division truncating toward zero: for each sign of dividend and divisor the product of quotient and divisor lies within one divisor of the dividend on the side of zero, and the quotient is negative only when the signs differ |
| JavaLang.ToLower | src/main/java/com/platzi/play/domain/service/MovieService.java:106 | the lower-cased string has the same length and each character lower-cased |
| JavaLang.ToLowerIdempotent | src/main/java/com/platzi/play/domain/service/MovieService.java:106 | lower-casing twice is lower-casing once |
| JavaLang.EqualsIgnoreCaseIffSameLower | src/main/java/com/platzi/play/persistence/mapper/StateMapper.java:10 | two strings are equal ignoring case iff their lower-cased forms are equal |
| JavaTime.ParseIsoDate | src/main/java/com/platzi/play/domain/service/MovieService.java:74 | a parsed date is a real calendar date written as ten characters yyyy-MM-dd |
| JavaTime.ParseFormat | src/main/java/com/platzi/play/domain/service/MovieService.java:74 | parsing the ISO text of any valid date gives that date back |
| JavaTime.FormatParse | src/main/java/com/platzi/play/domain/service/MovieService.java:74 | formatting a successfully parsed text gives the text back, so only canonical texts parse |

## Left out

- HTTP controllers, the JWT request filter, the authentication entry point, CORS and OpenAPI configuration: request plumbing around the modelled services; only the route table they are gated by is modelled.
- The register and login controllers turn an invalid-argument failure into a bare 400 (AuthController.java); that controller wrapping is not modelled, the service failures are.
- HMAC-SHA256 signing, Base64 key decoding and BCrypt: uninterpreted functions (`JwtConfig.mac`, `encode`, `matches`).
- The JJWT parser's own rejection of an expired token during claim extraction: library behaviour outside the service code; expiry is modelled only through `isTokenExpired`.
- Clock readings (`System.currentTimeMillis`, `LocalDateTime.now`): parameters.
- TMDB HTTP calls and query-string building: the answer is a parameter; the search, popular, top-rated, now-playing and upcoming calls differ from the modelled search only in URL and share the same page defaulting and URL building.
- Floating-point values: average rating, movie rating, vote average and popularity.
- The AI suggestion services: external language-model calls.
- `getAll` listings of users and movies, `UserEntityRepository.save` and `deleteById`: not used by the modelled services.
- `ReviewService` and the other service methods that only delegate to a repository.
- How the database reports the refused deletion of a movie that reviews still reference (the review's NOT NULL reference to its movie, ReviewEntity.java:29-31, has no cascade): reduced to one failure kind.
- Request methods other than GET, POST, PUT and DELETE: the method-specific rules name none; HEAD, OPTIONS or PATCH on the movie and review paths would need a login, and the method-less entries admit them.
- Bean-validation annotations on DTOs: framework-enforced; only their outcome (a list of field errors) reaches the exception handler.
- Transactions and concurrent check-then-insert races: the model is sequential.
- MovieEntity columns other than those the properties need, GenreMapper, and the MapStruct mappers beyond the id they copy on save (not part of this model).
- MovieRepository.Save: a caller-supplied id that names no stored movie is modelled as an insert under the next identity value; whether the merge of such an entity inserts or is refused depends on the persistence provider's version, which the sources do not fix.
- RestExceptionHandler.Handle: a validation field error's message is taken as present; Spring may supply none.
- JavaTime.ParseIsoDate: accepts only the plain yyyy-MM-dd form with a year in 0..9999; `ISO_DATE` also accepts an offset suffix and wider years, which the model rejects (the release date then reads as absent).
- JavaLang.ToLower: case mapping covers ASCII and Latin-1 letters only, enough for the Spanish genre names; Java's full Unicode tables are not modelled, and the default locale is taken as non-Turkish (under a Turkish locale "CIENCIA" would lower to a dotless-i form and miss the genre table).
- JwtService.ExpiryAfterIssue: compares seconds, not milliseconds, because the claims carry whole seconds.
- MovieRepository.FindByTmdbId: the repository method behind the TMDB lookup (MovieService.java:61-63) is not part of this model; it is read as the derived query at CrudMovieEntity.java:13 with the row handed back enriched like every other movie the repository returns.
- MovieRepository.Enrich: the record the enrichment builds (MovieEntityRepository.java:56-66) passes nine values, while the MovieDto record it names has seven fields and no TMDB fields at all; the two do not fit together, and the model reads the enriched record as the mapped row with its review count, so the TMDB id, image URLs, overview, original title and vote count survive. ImportIdempotent and ImportReadsBack rest on that reading.

=== FILE: auth_service.dfy ===
/** Registration and login. Both answer with a bearer token whose subject is the
    account's username, the token lifetime in seconds, and a summary of the
    account. The password encoder and matcher are parameters. */
module AuthService {
  import opened Wrappers
  import opened Exceptions
  import opened Tables
  import opened UserEntity
  import opened UserRepository
  import opened JwtService
  import SecurityConfig

  datatype RegisterRequest = RegisterRequest(
    username: string,
    email: string,
    password: string,
    confirmPassword: string,
    fullName: Option<string>)

  datatype UserInfo = UserInfo(
    id: Id,
    username: string,
    email: string,
    fullName: Option<string>,
    role: Role,
    lastAccess: Option<int>)

  datatype AuthResponse = AuthResponse(token: Token, tokenType: string, expiresIn: int, user: UserInfo)

  /** The clock reads a request makes: when the row is first persisted, the two
      reads that stamp the token, and the last-access time. */
  datatype Instants = Instants(persistedAt: int, issuedMs: nat, expiryBaseMs: nat, accessedAt: int)

  /** createAuthResponse: a Bearer token, its lifetime in seconds, and the
      account summary taken from the given record. */
  function CreateAuthResponse(token: Token, dto: UserDto, cfg: JwtConfig): (r: AuthResponse)
    ensures r.token == token && r.tokenType == "Bearer"
    ensures r.expiresIn == ExpirationTimeInSeconds(cfg)
    ensures r.user.id == dto.id && r.user.username == dto.username && r.user.email == dto.email
    ensures r.user.fullName == dto.fullName && r.user.role == dto.role && r.user.lastAccess == dto.lastAccess
  {
    AuthResponse(token, "Bearer", ExpirationTimeInSeconds(cfg),
                 UserInfo(dto.id, dto.username, dto.email, dto.fullName, dto.role, dto.lastAccess))
  }

  /** The account registration builds: a fresh entity made a verified, active
      USER holding the encoded password. */
  function NewAccount(req: RegisterRequest, encode: string -> string): (a: Account)
    ensures a.username == req.username && a.email == req.email && a.fullName == req.fullName
    ensures a.password == encode(req.password)
    ensures a.role == USER && a.active && a.emailVerified && IsEnabled(a)
    ensures a.createdAt.None? && a.lastAccess.None?
  {
    NewEntity(req.username, req.email, encode(req.password), req.fullName)
      .(role := USER, active := true, emailVerified := true)
  }

  /** Stamping the last access on the entity the request holds for row `id`
      and writing it through the repository update. That entity stays attached
      for the whole request (the persistence context is open in the view), so
      the update's lookup hands back the very same instance, copies its own six
      fields onto it, and the save writes the whole entity, stamp included. */
  function SaveStamped(s: Users, id: Id, a: Account, now: int): (r: Result<Users, Failure>)
    ensures id !in s.rows ==> r == Success(s)
    ensures id in s.rows ==> (r.Failure? <==> Clashes(s, id, a) != {})
    ensures r.Failure? ==> r.error == UniqueConstraintViolation
    ensures r.Success? && id in s.rows ==>
              r.value == s.(rows := s.rows[id := a.(lastAccess := Some(now))])
  {
    if id !in s.rows then Success(s)
    else Put(s, id, a.(lastAccess := Some(now)))
  }

  /** register. The checks run in order: confirmation, username, email. The
      account is saved, its summary is taken, the token is built, and then the
      last-access stamp is saved on the same entity; the response carries the
      summary taken before the stamp. */
  function Register(s: Users, req: RegisterRequest, encode: string -> string, cfg: JwtConfig, at: Instants)
    : (r: Result<(Users, AuthResponse), Failure>)
    ensures req.password != req.confirmPassword ==> r == Failure(IllegalArgument(PasswordMismatch))
    ensures req.password == req.confirmPassword && ExistsByUsername(s, req.username) ==> r == Failure(UserAlreadyExists)
    ensures req.password == req.confirmPassword && !ExistsByUsername(s, req.username) && ExistsByEmail(s, req.email)
            ==> r == Failure(UserAlreadyExists)
    ensures r.Failure? ==> r.error in {IllegalArgument(PasswordMismatch), UserAlreadyExists, UniqueConstraintViolation}
    ensures r.Success? ==>
            var (s', resp) := r.value;
            var id := s.nextId;
            && s'.rows == s.rows[id := NewAccount(req, encode).(createdAt := Some(at.persistedAt),
                                                                 lastAccess := Some(at.accessedAt))]
            && s'.nextId == s.nextId + 1
            && resp.token == BuildToken(req.username, cfg, at.issuedMs, at.expiryBaseMs)
            && resp.tokenType == "Bearer" && resp.expiresIn == ExpirationTimeInSeconds(cfg)
            && resp.user == UserInfo(id, req.username, req.email, req.fullName, USER, None)
  {
    if req.password != req.confirmPassword then Failure(IllegalArgument(PasswordMismatch))
    else if ExistsByUsername(s, req.username) then Failure(UserAlreadyExists)
    else if ExistsByEmail(s, req.email) then Failure(UserAlreadyExists)
    else
      var account := NewAccount(req, encode);
      var (s1, id) :- Insert(s, account, at.persistedAt);
      var saved := ToDto(id, s1.rows[id]);
      var token := BuildToken(account.username, cfg, at.issuedMs, at.expiryBaseMs);
      var s2 :- SaveStamped(s1, id, s1.rows[id], at.accessedAt);
      Success((s2, CreateAuthResponse(token, saved, cfg)))
  }

  /** On a table with unique usernames and emails, registration succeeds
      exactly when the confirmation matches and both username and email are
      free, and the table keeps its invariant. */
  lemma RegisterSucceedsIff(s: Users, req: RegisterRequest, encode: string -> string, cfg: JwtConfig, at: Instants)
    requires Valid(s)
    ensures var r := Register(s, req, encode, cfg, at);
            && (r.Success? <==> req.password == req.confirmPassword
                                && !ExistsByUsername(s, req.username) && !ExistsByEmail(s, req.email))
            && (r.Success? ==> Valid(r.value.0) && s.nextId !in s.rows)
  {
    if req.password == req.confirmPassword && !ExistsByUsername(s, req.username) && !ExistsByEmail(s, req.email) {
      var account := NewAccount(req, encode);
      var (s1, id) := Insert(s, account, at.persistedAt).value;
      PutSameKeys(s1, id, s1.rows[id].(lastAccess := Some(at.accessedAt)));
    }
  }

  /** The response of a registration reads back: its token names the
      registered user under the same key, its user id holds that user, and the
      token stays valid for that user until its expiry instant. */
  lemma RegisterResponseReadsBack(s: Users, req: RegisterRequest, encode: string -> string, cfg: JwtConfig,
                                  at: Instants)
    requires Register(s, req, encode, cfg, at).Success?
    ensures var (s', resp) := Register(s, req, encode, cfg, at).value;
            && ExtractUsername(resp.token, cfg) == Success(resp.user.username)
            && resp.user.id in s'.rows && s'.rows[resp.user.id].username == resp.user.username
            && IsTokenValid(resp.token, resp.user.username, cfg, resp.token.claims.exp * 1000) == Success(true)
  {
    var (s', resp) := Register(s, req, encode, cfg, at).value;
    ExtractUsernameRoundTrip(req.username, cfg, at.issuedMs, at.expiryBaseMs);
  }

  /** What the authentication provider does with a login name and password:
      load the account by username or email, run the status checks, and match
      the password against the stored hash. Any failure is an authentication
      failure; success yields the authenticated principal. */
  function Authenticate(s: Users, name: string, password: string, matches: (string, string) -> bool)
    : (r: Option<(Id, Account)>)
    ensures r.Some? <==> && SecurityConfig.LoadUserByUsername(s, name).Success?
                         && var id := SecurityConfig.LoadUserByUsername(s, name).value;
                         && PassesStatusChecks(s.rows[id]) && matches(password, s.rows[id].password)
    ensures r.Some? ==> r.value.0 in s.rows && r.value.1 == s.rows[r.value.0]
    ensures r.Some? ==> r.value.1.username == name || r.value.1.email == name
  {
    match SecurityConfig.LoadUserByUsername(s, name)
    case Failure(_) => None
    case Success(id) =>
      var a := s.rows[id];
      if !PassesStatusChecks(a) || !matches(password, a.password) then None else Some((id, a))
  }

  /** login, given what authentication produced: a failure becomes "invalid
      credentials"; a principal whose id no longer resolves is UserNotFound;
      otherwise a token for the principal's username, the summary read before
      the stamp, and the principal saved with its last access stamped. */
  function LoginWith(s: Users, principal: Option<(Id, Account)>, cfg: JwtConfig, at: Instants)
    : (r: Result<(Users, AuthResponse), Failure>)
    ensures principal.None? ==> r == Failure(IllegalArgument(InvalidCredentials))
    ensures principal.Some? && principal.value.0 !in s.rows ==> r == Failure(UserNotFound)
    ensures r.Failure? ==> r.error in {IllegalArgument(InvalidCredentials), UserNotFound, UniqueConstraintViolation}
    ensures r.Success? ==>
            && principal.Some? && principal.value.0 in s.rows
            && var (id, a) := principal.value;
            && r.value.0 == s.(rows := s.rows[id := a.(lastAccess := Some(at.accessedAt))])
            && r.value.1.token == BuildToken(a.username, cfg, at.issuedMs, at.expiryBaseMs)
            && r.value.1 == CreateAuthResponse(r.value.1.token, ToDto(id, s.rows[id]), cfg)
  {
    match principal
    case None => Failure(IllegalArgument(InvalidCredentials))
    case Some((id, a)) =>
      match GetById(s, id)
      case None => Failure(UserNotFound)
      case Some(dto) =>
        var token := BuildToken(a.username, cfg, at.issuedMs, at.expiryBaseMs);
        var s' :- SaveStamped(s, id, a, at.accessedAt);
        Success((s', CreateAuthResponse(token, dto, cfg)))
  }

  /** login. */
  function Login(s: Users, name: string, password: string, matches: (string, string) -> bool,
                 cfg: JwtConfig, at: Instants): (r: Result<(Users, AuthResponse), Failure>)
    ensures r.Failure? ==> r.error in {IllegalArgument(InvalidCredentials), UserNotFound, UniqueConstraintViolation}
  {
    LoginWith(s, Authenticate(s, name, password, matches), cfg, at)
  }

  /** The authenticated principal always resolves in a sequential run, so login
      never reports UserNotFound. */
  lemma LoginNeverUserNotFound(s: Users, name: string, password: string, matches: (string, string) -> bool,
                               cfg: JwtConfig, at: Instants)
    ensures Login(s, name, password, matches, cfg, at) != Failure(UserNotFound)
  {
  }

  /** On a valid table, login succeeds exactly when the name finds an enabled
      account whose stored hash matches the password. It then changes only that
      account's last access, keeps the invariant, and answers with a token for
      the account's username (even when the login name was its email) that
      reads back under the same key, and with the summary taken before the
      stamp. */
  lemma LoginSucceedsIff(s: Users, name: string, password: string, matches: (string, string) -> bool,
                         cfg: JwtConfig, at: Instants)
    requires Valid(s)
    ensures var r := Login(s, name, password, matches, cfg, at);
            && (r.Success? <==> && SecurityConfig.LoadUserByUsername(s, name).Success?
                                && var id := SecurityConfig.LoadUserByUsername(s, name).value;
                                && IsEnabled(s.rows[id]) && matches(password, s.rows[id].password))
            && (r.Failure? ==> r.error == IllegalArgument(InvalidCredentials))
            && (r.Success? ==> && var id := SecurityConfig.LoadUserByUsername(s, name).value;
                               && r.value.0 == s.(rows := s.rows[id := s.rows[id].(lastAccess := Some(at.accessedAt))])
                               && Valid(r.value.0)
                               && r.value.1.token == BuildToken(s.rows[id].username, cfg, at.issuedMs, at.expiryBaseMs)
                               && ExtractUsername(r.value.1.token, cfg) == Success(r.value.1.user.username)
                               && r.value.1.user.id == id
                               && r.value.1.user.lastAccess == s.rows[id].lastAccess)
  {
    var principal := Authenticate(s, name, password, matches);
    var loaded := SecurityConfig.LoadUserByUsername(s, name);
    if loaded.Success? {
      StatusChecksAreEnabled(s.rows[loaded.value]);
    }
    if principal.Some? {
      var (id, a) := principal.value;
      PutSameKeys(s, id, a.(lastAccess := Some(at.accessedAt)));
      ExtractUsernameRoundTrip(a.username, cfg, at.issuedMs, at.expiryBaseMs);
    }
  }
}

=== FILE: exceptions.dfy ===
/** The exceptions the core throws, one constructor per Java exception class
    (or per distinct reason, for java.lang.IllegalArgumentException). */
module Exceptions {

  /** Why an IllegalArgumentException was thrown. */
  datatype IllegalReason =
    | PasswordMismatch     // AuthService.register: password != confirmPassword
    | InvalidCredentials   // AuthService.login: any AuthenticationException
    | RatingOutOfRange     // ReviewEntity.validateRating

  /** One rejected field of a request body (MethodArgumentNotValidException). */
  datatype FieldError = FieldError(field: string, message: string)

  datatype Failure =
    | UserNotFound                    // UserNotFoundException
    | UserAlreadyExists               // UserAlreadyExistsException
    | MovieNotFound                   // MovieNotFoundException
    | MovieAlreadyExists              // MovieAlreadyException
    | MovieTitleAlreadyExists         // MovieTitleAlreadyExistsException
    | ReviewNotFound                  // ReviewNotFoundException
    | ReviewAlreadyExists             // ReviewAlreadyExistsException
    | UnauthorizedReviewAccess        // UnauthorizedReviewAccessException
    | IllegalArgument(reason: IllegalReason)
    | UsernameNotFound                // Spring Security UsernameNotFoundException
    | IncorrectResultSize             // a single-result query matched several rows
    | UniqueConstraintViolation       // the database refused a duplicate unique column
    | NotNullConstraintViolation      // the database refused a null in a NOT NULL column
    | ForeignKeyViolation             // the database refused to drop a row other rows still reference
    | InvalidSignature                // the JWT parser rejected the signature
    | NullReference                   // NullPointerException
    | ArgumentNotValid(errors: seq<FieldError>)
}

=== FILE: java_lang.dfy ===
/** The few java.lang behaviours the core depends on: truncating long division,
    and the case mappings behind String.toLowerCase and equalsIgnoreCase,
    restricted to the Basic Latin and Latin-1 letters. */
module JavaLang {

  /** Java's `a / b` on long: the quotient truncated toward zero, for either
      sign of the divisor. */
  function Div(a: int, b: int): (q: int)
    requires b != 0
    ensures 0 <= a && 0 < b ==> q * b <= a < q * b + b
    ensures a < 0 && 0 < b ==> q * b - b < a <= q * b
    ensures 0 <= a && b < 0 ==> q * b <= a < q * b - b
    ensures a < 0 && b < 0 ==> q * b + b < a <= q * b
    ensures a == 0 ==> q == 0
    ensures q != 0 ==> (q < 0 <==> (a < 0) != (b < 0))
  {
    TruncatedQuotient(a, b, Truncate(a, b));
    Truncate(a, b)
  }

  /** The magnitude of the Euclidean quotient of the magnitudes, signed by
      the operands' signs. */
  function Truncate(a: int, b: int): int
    requires b != 0
  {
    var n := Abs(a) / Abs(b);
    if (a < 0) == (b < 0) then n else -(n as int)
  }

  /** The truncated quotient, sign case by sign case: each case reduces to
      the bounds on the quotient of the magnitudes. */
  lemma TruncatedQuotient(a: int, b: int, q: int)
    requires b != 0 && q == Truncate(a, b)
    ensures 0 <= a && 0 < b ==> q * b <= a < q * b + b
    ensures a < 0 && 0 < b ==> q * b - b < a <= q * b
    ensures 0 <= a && b < 0 ==> q * b <= a < q * b - b
    ensures a < 0 && b < 0 ==> q * b + b < a <= q * b
    ensures a == 0 ==> q == 0
    ensures q != 0 ==> (q < 0 <==> (a < 0) != (b < 0))
  {
    QuotientBounds(Abs(a), Abs(b));
    var n := Abs(a) / Abs(b);
    var m := n * Abs(b);
    assert Abs(q) == n;
    if q < 0 {
      if b < 0 { assert q * b == (-q) * (-b) == m; } else { assert q * b == -((-q) * b) == -m; }
    } else {
      if b < 0 { assert q * b == -(q * (-b)) == -m; } else { assert q * b == m; }
    }
  }

  /** The truncated quotient of two naturals brackets the dividend. */
  lemma QuotientBounds(x: nat, y: nat)
    requires y > 0
    ensures (x / y) * y <= x < (x / y) * y + y
  {
  }

  function Abs(a: int): nat {
    if a < 0 then -a else a
  }

  /** Character.toLowerCase on A-Z and on the Latin-1 capitals (U+00C0..U+00DE
      except the multiplication sign). */
  function LowerChar(c: char): (d: char)
    ensures 'A' <= c <= 'Z' ==> d as int == c as int + 32
    ensures !IsUpper(c) ==> d == c
  {
    if IsUpper(c) then (c as int + 32) as char else c
  }

  /** Character.toUpperCase on a-z and on the Latin-1 small letters (U+00E0..U+00FE
      except the division sign). */
  function UpperChar(c: char): (d: char)
    ensures 'a' <= c <= 'z' ==> d as int == c as int - 32
    ensures !IsLower(c) ==> d == c
  {
    if IsLower(c) then (c as int - 32) as char else c
  }

  predicate IsUpper(c: char) {
    ('A' <= c <= 'Z') || ('À' <= c <= 'Þ' && c != '×')
  }

  predicate IsLower(c: char) {
    ('a' <= c <= 'z') || ('à' <= c <= 'þ' && c != '÷')
  }

  lemma LowerUpperInverse(c: char)
    ensures IsUpper(c) ==> IsLower(LowerChar(c)) && UpperChar(LowerChar(c)) == c
    ensures IsLower(c) ==> IsUpper(UpperChar(c)) && LowerChar(UpperChar(c)) == c
  {
  }

  /** String.toLowerCase. */
  function ToLower(s: string): (r: string)
    ensures |r| == |s|
    ensures forall i :: 0 <= i < |s| ==> r[i] == LowerChar(s[i])
  {
    if s == [] then [] else [LowerChar(s[0])] + ToLower(s[1..])
  }

  /** A string with no upper-case letter is its own lower-case form. */
  lemma ToLowerOfLower(s: string)
    requires forall i :: 0 <= i < |s| ==> !IsUpper(s[i])
    ensures ToLower(s) == s
  {
  }

  /** Lower-casing twice changes nothing more than lower-casing once. */
  lemma ToLowerIdempotent(s: string)
    ensures ToLower(ToLower(s)) == ToLower(s)
  {
    var l := ToLower(s);
    forall i | 0 <= i < |s|
      ensures ToLower(l)[i] == l[i]
    {
      assert !IsUpper(l[i]);
    }
  }

  /** String.equalsIgnoreCase on two non-null strings: equal length, and each
      pair of characters equal, equal after upper-casing, or equal after
      upper- then lower-casing. */
  predicate EqualsIgnoreCase(a: string, b: string) {
    |a| == |b| &&
    forall i :: 0 <= i < |a| ==> SameIgnoringCase(a[i], b[i])
  }

  predicate SameIgnoringCase(x: char, y: char) {
    x == y || UpperChar(x) == UpperChar(y) || LowerChar(UpperChar(x)) == LowerChar(UpperChar(y))
  }

  /** Two strings are equal ignoring case exactly when their lower-case forms are equal. */
  lemma EqualsIgnoreCaseIffSameLower(a: string, b: string)
    ensures EqualsIgnoreCase(a, b) <==> ToLower(a) == ToLower(b)
  {
    if |a| == |b| {
      if ToLower(a) == ToLower(b) {
        forall i | 0 <= i < |a|
          ensures SameIgnoringCase(a[i], b[i])
        {
          assert LowerChar(a[i]) == LowerChar(b[i]);
          LowerUpperInverse(a[i]);
          LowerUpperInverse(b[i]);
        }
      }
      if EqualsIgnoreCase(a, b) {
        forall i | 0 <= i < |a|
          ensures ToLower(a)[i] == ToLower(b)[i]
        {
          assert SameIgnoringCase(a[i], b[i]);
          LowerUpperInverse(a[i]);
          LowerUpperInverse(b[i]);
        }
      }
    } else {
      assert |ToLower(a)| != |ToLower(b)|;
    }
  }
}

=== FILE: java_time.dfy ===
/** LocalDate.parse with DateTimeFormatter.ISO_DATE, for dates written
    "yyyy-MM-dd" with a four-digit year, and the matching LocalDate.toString. */
module JavaTime {
  import opened Wrappers
  import opened MovieEntity

  predicate IsDigit(c: char) {
    '0' <= c <= '9'
  }

  function DigitValue(c: char): (n: nat)
    requires IsDigit(c)
    ensures n < 10
  {
    c as int - '0' as int
  }

  function Digit(n: nat): (c: char)
    requires n < 10
    ensures IsDigit(c) && DigitValue(c) == n
  {
    (n + '0' as int) as char
  }

  /** The value of two decimal digits. */
  function Value2(a: char, b: char): (n: nat)
    requires IsDigit(a) && IsDigit(b)
    ensures n < 100
  {
    DigitValue(a) * 10 + DigitValue(b)
  }

  /** The value of four decimal digits. */
  function Value4(s: string): (n: nat)
    requires |s| == 4 && forall i :: 0 <= i < 4 ==> IsDigit(s[i])
    ensures n < 10000
  {
    Value2(s[0], s[1]) * 100 + Value2(s[2], s[3])
  }

  /** The positions of "yyyy-MM-dd" that hold digits. */
  predicate DigitsAt(s: string)
    requires |s| == 10
  {
    IsDigit(s[0]) && IsDigit(s[1]) && IsDigit(s[2]) && IsDigit(s[3])
    && IsDigit(s[5]) && IsDigit(s[6]) && IsDigit(s[8]) && IsDigit(s[9])
  }

  /** LocalDate.parse(s, ISO_DATE): the text must be "yyyy-MM-dd" and name a
      day that exists (the formatter resolves strictly). */
  function ParseIsoDate(s: string): (r: Option<Date>)
    ensures r.Some? ==> ValidDate(r.value) && 0 <= r.value.year < 10000
    ensures r.Some? ==> |s| == 10 && s[4] == '-' && s[7] == '-'
  {
    if |s| != 10 || s[4] != '-' || s[7] != '-' || !DigitsAt(s) then None
    else
      var d := Date(Value4(s[..4]), Value2(s[5], s[6]), Value2(s[8], s[9]));
      if ValidDate(d) then Some(d) else None
  }

  /** LocalDate.toString for a year of at most four digits. */
  function FormatIsoDate(d: Date): (s: string)
    requires ValidDate(d) && 0 <= d.year < 10000
    ensures |s| == 10 && s[4] == '-' && s[7] == '-'
  {
    [Digit(d.year / 1000), Digit(d.year / 100 % 10), Digit(d.year / 10 % 10), Digit(d.year % 10), '-',
     Digit(d.month / 10), Digit(d.month % 10), '-', Digit(d.day / 10), Digit(d.day % 10)]
  }

  /** Printing a date and parsing the text gives the date back. */
  lemma {:induction false} ParseFormat(d: Date)
    requires ValidDate(d) && 0 <= d.year < 10000
    ensures ParseIsoDate(FormatIsoDate(d)) == Some(d)
  {
    var s := FormatIsoDate(d);
    assert s[..4] == [s[0], s[1], s[2], s[3]];
    var y := d.year;
    assert Value2(s[0], s[1]) == y / 100 by {
      assert y / 1000 * 10 + y / 100 % 10 == y / 100;
    }
    assert Value2(s[2], s[3]) == y % 100 by {
      assert y / 10 % 10 * 10 + y % 10 == y % 100;
    }
    assert Value4(s[..4]) == y;
    assert Value2(s[5], s[6]) == d.month;
    assert Value2(s[8], s[9]) == d.day;
  }

  /** A digit character is the digit of its value. */
  lemma DigitOfValue(c: char)
    requires IsDigit(c)
    ensures Digit(DigitValue(c)) == c
  {
  }

  /** The digits of a four-digit number are recovered by division. */
  lemma SplitDigits4(a: nat, b: nat, c: nat, e: nat)
    requires a < 10 && b < 10 && c < 10 && e < 10
    ensures var v := a * 1000 + b * 100 + c * 10 + e;
            v / 1000 == a && v / 100 % 10 == b && v / 10 % 10 == c && v % 10 == e
  {
    var v := a * 1000 + b * 100 + c * 10 + e;
    DivMod1000(a, b * 100 + c * 10 + e);
    DivMod100(a * 10 + b, c * 10 + e);
    DivMod10(a, b);
    DivMod10(a * 100 + b * 10 + c, e);
    DivMod10(a * 10 + b, c);
  }

  /** The digits of a two-digit number are recovered by division. */
  lemma SplitDigits2(a: nat, b: nat)
    requires a < 10 && b < 10
    ensures (a * 10 + b) / 10 == a && (a * 10 + b) % 10 == b
  {
    DivMod10(a, b);
  }

  /** Division of q * 10 + r with a remainder below 10. */
  lemma DivMod10(q: nat, r: nat)
    requires r < 10
    ensures (q * 10 + r) / 10 == q && (q * 10 + r) % 10 == r
  {
  }

  /** Division of q * 100 + r with a remainder below 100. */
  lemma DivMod100(q: nat, r: nat)
    requires r < 100
    ensures (q * 100 + r) / 100 == q && (q * 100 + r) % 100 == r
  {
  }

  /** Division of q * 1000 + r with a remainder below 1000. */
  lemma DivMod1000(q: nat, r: nat)
    requires r < 1000
    ensures (q * 1000 + r) / 1000 == q && (q * 1000 + r) % 1000 == r
  {
  }

  /** Text that parses is exactly the printed form of what it parses to. */
  lemma {:induction false} FormatParse(s: string)
    requires ParseIsoDate(s).Some?
    ensures FormatIsoDate(ParseIsoDate(s).value) == s
  {
    var d := ParseIsoDate(s).value;
    assert s[..4] == [s[0], s[1], s[2], s[3]];
    SplitDigits4(DigitValue(s[0]), DigitValue(s[1]), DigitValue(s[2]), DigitValue(s[3]));
    SplitDigits2(DigitValue(s[5]), DigitValue(s[6]));
    SplitDigits2(DigitValue(s[8]), DigitValue(s[9]));
    DigitOfValue(s[0]); DigitOfValue(s[1]); DigitOfValue(s[2]); DigitOfValue(s[3]);
    DigitOfValue(s[5]); DigitOfValue(s[6]); DigitOfValue(s[8]); DigitOfValue(s[9]);
    var t := FormatIsoDate(d);
    assert t == s;
  }
}

=== FILE: jwt_service.dfy ===
/** Issuing and checking JSON Web Tokens (RFC 7519) signed with HMAC-SHA256
    (section 3.2 of RFC 7518). The MAC itself is abstract: a token is valid
    under a key when its signature equals that key's MAC of its claims. */
module JwtService {
  import opened Wrappers
  import opened Exceptions
  import JavaLang

  /** The registered claims the service writes: `sub`, and `iat` and `exp` as
      NumericDate values, i.e. whole seconds since the epoch (section 2 of RFC 7519). */
  datatype Claims = Claims(sub: string, iat: int, exp: int)

  /** A token reduced to what the parser reconstructs from its compact form. */
  datatype Token = Token(claims: Claims, signature: seq<bv8>)

  /** The secret, the lifetime in milliseconds, and the MAC over claims. */
  datatype JwtConfig = JwtConfig(secret: string, expirationMs: int, mac: (string, Claims) -> seq<bv8>)

  /** The lifetime used when none is configured: one hour. */
  const DefaultExpirationMs: int := 3600000

  /** A java.util.Date written as a NumericDate: milliseconds truncated to seconds. */
  function NumericDate(ms: int): (sec: int)
    ensures 0 <= ms ==> sec * 1000 <= ms < sec * 1000 + 1000
  {
    JavaLang.Div(ms, 1000)
  }

  /** buildToken: the subject is the username; `iat` comes from one clock read
      and `exp` from a second read plus the lifetime. */
  function BuildToken(username: string, cfg: JwtConfig, issuedMs: nat, expiryBaseMs: nat): (t: Token)
    ensures t.claims.sub == username
    ensures t.claims.iat == NumericDate(issuedMs)
    ensures t.claims.exp == NumericDate(expiryBaseMs + cfg.expirationMs)
    ensures t.signature == cfg.mac(cfg.secret, t.claims)
  {
    var claims := Claims(username, NumericDate(issuedMs), NumericDate(expiryBaseMs + cfg.expirationMs));
    Token(claims, cfg.mac(cfg.secret, claims))
  }

  /** extractAllClaims: the parser refuses a token whose signature is not the
      configured key's MAC of its claims. */
  function ExtractAllClaims(t: Token, cfg: JwtConfig): (r: Result<Claims, Failure>)
    ensures r.Success? <==> t.signature == cfg.mac(cfg.secret, t.claims)
    ensures r.Success? ==> r.value == t.claims
    ensures r.Failure? ==> r.error == InvalidSignature
  {
    if t.signature == cfg.mac(cfg.secret, t.claims) then Success(t.claims) else Failure(InvalidSignature)
  }

  /** extractUsername: the `sub` claim. */
  function ExtractUsername(t: Token, cfg: JwtConfig): (r: Result<string, Failure>)
    ensures r.Success? <==> ExtractAllClaims(t, cfg).Success?
    ensures r.Success? ==> r.value == t.claims.sub
  {
    var claims :- ExtractAllClaims(t, cfg);
    Success(claims.sub)
  }

  /** extractExpiration: the `exp` claim read back as a Date, in milliseconds. */
  function ExtractExpiration(t: Token, cfg: JwtConfig): (r: Result<int, Failure>)
    ensures r.Success? <==> ExtractAllClaims(t, cfg).Success?
    ensures r.Success? ==> r.value == t.claims.exp * 1000
  {
    var claims :- ExtractAllClaims(t, cfg);
    Success(claims.exp * 1000)
  }

  /** isTokenExpired: the expiration lies strictly before now. */
  function IsTokenExpired(t: Token, cfg: JwtConfig, nowMs: int): (r: Result<bool, Failure>)
    ensures r.Success? <==> ExtractAllClaims(t, cfg).Success?
    ensures r.Success? ==> (r.value <==> t.claims.exp * 1000 < nowMs)
  {
    var expMs :- ExtractExpiration(t, cfg);
    Success(expMs < nowMs)
  }

  /** isTokenValid: the subject is the user's username and the token has not expired. */
  function IsTokenValid(t: Token, username: string, cfg: JwtConfig, nowMs: int): (r: Result<bool, Failure>)
    ensures r.Success? <==> t.signature == cfg.mac(cfg.secret, t.claims)
    ensures r.Failure? ==> r.error == InvalidSignature
    ensures r.Success? ==> (r.value <==> t.claims.sub == username && nowMs <= t.claims.exp * 1000)
  {
    match ExtractAllClaims(t, cfg)
    case Failure(e) => Failure(e)
    case Success(claims) => Success(claims.sub == username && !(claims.exp * 1000 < nowMs))
  }

  /** getExpirationTimeInSeconds: the lifetime in whole seconds. */
  function ExpirationTimeInSeconds(cfg: JwtConfig): (s: int)
    ensures 0 <= cfg.expirationMs ==> s * 1000 <= cfg.expirationMs < s * 1000 + 1000
    ensures cfg.expirationMs == DefaultExpirationMs ==> s == 3600
  {
    JavaLang.Div(cfg.expirationMs, 1000)
  }

  /** A token reads back the subject it was built with, under the same key. */
  lemma ExtractUsernameRoundTrip(username: string, cfg: JwtConfig, issuedMs: nat, expiryBaseMs: nat)
    ensures ExtractUsername(BuildToken(username, cfg, issuedMs, expiryBaseMs), cfg) == Success(username)
  {
  }

  /** A key whose MAC of the claims differs cannot read the token. */
  lemma OtherKeyRejects(username: string, cfg: JwtConfig, other: JwtConfig, issuedMs: nat, expiryBaseMs: nat)
    requires var t := BuildToken(username, cfg, issuedMs, expiryBaseMs);
             other.mac(other.secret, t.claims) != cfg.mac(cfg.secret, t.claims)
    ensures ExtractUsername(BuildToken(username, cfg, issuedMs, expiryBaseMs), other) == Failure(InvalidSignature)
  {
  }

  /** With the second clock read no earlier than the first and a non-negative
      lifetime, `exp` is at least `iat` plus the lifetime in whole seconds; the
      two reads may differ, so equality is not promised. */
  lemma {:induction false} ExpiryAfterIssue(username: string, cfg: JwtConfig, issuedMs: nat, expiryBaseMs: nat)
    requires issuedMs <= expiryBaseMs && 0 <= cfg.expirationMs
    ensures var c := BuildToken(username, cfg, issuedMs, expiryBaseMs).claims;
            c.exp >= c.iat + ExpirationTimeInSeconds(cfg)
  {
    var c := BuildToken(username, cfg, issuedMs, expiryBaseMs).claims;
    var e := ExpirationTimeInSeconds(cfg);
    assert c.iat * 1000 <= issuedMs;
    assert e * 1000 <= cfg.expirationMs;
    assert (c.iat + e) * 1000 <= expiryBaseMs + cfg.expirationMs < c.exp * 1000 + 1000;
  }

  /** A freshly built token is valid for its own user at every instant up to a
      second before its nominal expiry, still valid at exactly its `exp`
      instant, and invalid at any later instant. */
  lemma {:induction false} FreshTokenValidity(username: string, cfg: JwtConfig, issuedMs: nat, expiryBaseMs: nat, nowMs: int)
    requires 0 <= cfg.expirationMs
    ensures var t := BuildToken(username, cfg, issuedMs, expiryBaseMs);
            && (nowMs + 1000 <= expiryBaseMs + cfg.expirationMs ==> IsTokenValid(t, username, cfg, nowMs) == Success(true))
            && (nowMs == t.claims.exp * 1000 ==> IsTokenValid(t, username, cfg, nowMs) == Success(true))
            && (nowMs > t.claims.exp * 1000 ==> IsTokenValid(t, username, cfg, nowMs) == Success(false))
  {
    var t := BuildToken(username, cfg, issuedMs, expiryBaseMs);
    assert expiryBaseMs + cfg.expirationMs < t.claims.exp * 1000 + 1000;
  }
}

=== FILE: movie_entity.dfy ===
/** A row of the movies table, with the genre enumeration and calendar dates. */
module MovieEntity {
  import opened Wrappers

  /** The genres the catalog distinguishes. */
  datatype Genre =
    | ACTION | COMEDY | DRAMA | HORROR | SCI_FI | THRILLER | ROMANCE
    | ANIMATED | ADVENTURE | FANTASY | MYSTERY | CRIME | DOCUMENTARY | OTHER

  /** A LocalDate in the proleptic Gregorian calendar. */
  datatype Date = Date(year: int, month: int, day: int)

  predicate IsLeapYear(y: int) {
    y % 4 == 0 && (y % 100 != 0 || y % 400 == 0)
  }

  function DaysInMonth(y: int, m: int): int {
    if m == 2 then (if IsLeapYear(y) then 29 else 28)
    else if m == 4 || m == 6 || m == 9 || m == 11 then 30
    else 31
  }

  /** A day that exists in the calendar. */
  predicate ValidDate(d: Date) {
    1 <= d.month <= 12 && 1 <= d.day <= DaysInMonth(d.year, d.month)
  }

  /** A stored movie. Title, duration, genre and state are NOT NULL columns. */
  datatype Movie = Movie(
    title: string,
    duration: int,
    genre: Genre,
    releaseDate: Option<Date>,
    state: string,
    tmdbId: Option<int>,
    posterUrl: Option<string>,
    backdropUrl: Option<string>,
    overview: Option<string>,
    originalTitle: Option<string>,
    voteCount: Option<int>)
}

=== FILE: movie_repository.dfy ===
/** The movies table: unique titles, the "D" state every saved movie gets,
    not-found errors, and the review count each movie is handed out with. */
module MovieRepository {
  import opened Wrappers
  import opened Exceptions
  import opened Tables
  import opened MovieEntity
  import StateMapper
  import ReviewRepository

  datatype Movies = Movies(rows: map<Id, Movie>, nextId: Id)

  /** A movie as the domain sees it: availability instead of the state column,
      and the number of reviews it has. */
  datatype MovieDto = MovieDto(
    id: Option<Id>,
    title: Option<string>,
    duration: int,
    genre: Genre,
    releaseDate: Option<Date>,
    available: bool,
    reviewCount: nat,
    tmdbId: Option<int>,
    posterUrl: Option<string>,
    backdropUrl: Option<string>,
    overview: Option<string>,
    originalTitle: Option<string>,
    voteCount: Option<int>)

  /** The fields an edit may carry; a null field is copied as null. */
  datatype MovieEdit = MovieEdit(title: Option<string>, releaseDate: Option<Date>)

  /** The state written on save. */
  const Available: string := "D"

  /** Titles are unique, every movie carries the "D" state, every id is below
      the identity counter. */
  ghost predicate Valid(s: Movies) {
    && (forall i, j :: i in s.rows && j in s.rows && s.rows[i].title == s.rows[j].title ==> i == j)
    && (forall i :: i in s.rows ==> s.rows[i].state == Available && i < s.nextId)
  }

  function TitleKeys(s: Movies, title: string): set<Id> {
    set i | i in s.rows && s.rows[i].title == title
  }

  function TmdbKeys(s: Movies, tmdbId: int): set<Id> {
    set i | i in s.rows && s.rows[i].tmdbId == Some(tmdbId)
  }

  /** findFirstByTitle finds a row: some movie has that title. A null title
      matches no row, since the column is NOT NULL. */
  predicate TitleTaken(s: Movies, title: Option<string>) {
    title.Some? && TitleKeys(s, title.value) != {}
  }

  /** The enrichment step: the row as a domain record with its review count. */
  function Enrich(s: Movies, reviews: ReviewRepository.Reviews, id: Id): (d: MovieDto)
    requires id in s.rows
    ensures d.id == Some(id) && d.title == Some(s.rows[id].title)
    ensures d.available <==> s.rows[id].state == "D" || s.rows[id].state == "d"
    ensures d.reviewCount == |set i | i in reviews.rows && reviews.rows[i].movieId == id|
  {
    var m := s.rows[id];
    MovieDto(Some(id), Some(m.title), m.duration, m.genre, m.releaseDate,
             StateMapper.StateToBoolean(Some(m.state)), ReviewRepository.CountByMovieId(reviews, id),
             m.tmdbId, m.posterUrl, m.backdropUrl, m.overview, m.originalTitle, m.voteCount)
  }

  /** getById: null for an unknown id. */
  function GetById(s: Movies, reviews: ReviewRepository.Reviews, id: Id): (r: Option<MovieDto>)
    ensures r.None? <==> id !in s.rows
    ensures r.Some? ==> r.value == Enrich(s, reviews, id)
  {
    if id in s.rows then Some(Enrich(s, reviews, id)) else None
  }

  /** The row save writes: the record's fields with the state forced to "D". */
  function ToRow(dto: MovieDto, title: string): (m: Movie)
    ensures m.title == title && m.state == Available
    ensures m.duration == dto.duration && m.genre == dto.genre && m.releaseDate == dto.releaseDate
    ensures m.tmdbId == dto.tmdbId
  {
    Movie(title, dto.duration, dto.genre, dto.releaseDate, Available, dto.tmdbId,
          dto.posterUrl, dto.backdropUrl, dto.overview, dto.originalTitle, dto.voteCount)
  }

  /** The mapper copies the record's id onto the entity, and saving an entity
      whose id names a stored row merges it onto that row. */
  predicate MergesOnto(s: Movies, dto: MovieDto) {
    dto.id.Some? && dto.id.value in s.rows
  }

  /** The row a save writes: the merged row, or else the next id the identity
      column hands out. */
  function SaveTarget(s: Movies, dto: MovieDto): Id {
    if MergesOnto(s, dto) then dto.id.value else s.nextId
  }

  /** save: refused when a movie already has the title; otherwise written
      under the save target with state "D" and handed back enriched. A null
      title passes the lookup and is refused by the NOT NULL column. */
  function Save(s: Movies, reviews: ReviewRepository.Reviews, dto: MovieDto): (r: Result<(Movies, MovieDto), Failure>)
    ensures TitleTaken(s, dto.title) ==> r == Failure(MovieAlreadyExists)
    ensures dto.title.None? ==> r == Failure(NotNullConstraintViolation)
    ensures r.Success? <==> dto.title.Some? && !TitleTaken(s, dto.title)
    ensures r.Success? ==>
            var (s', out) := r.value;
            var id := SaveTarget(s, dto);
            && s'.rows == s.rows[id := ToRow(dto, dto.title.value)]
            && s'.nextId == (if MergesOnto(s, dto) then s.nextId else s.nextId + 1)
            && out == Enrich(s', reviews, id)
            && out.id == Some(id)
            && out.available
            && out.reviewCount == ReviewRepository.CountByMovieId(reviews, id)
    ensures r.Success? && MergesOnto(s, dto) ==> r.value.0.rows.Keys == s.rows.Keys && r.value.1.id == dto.id
    ensures r.Success? && !MergesOnto(s, dto) ==> r.value.0.rows.Keys == s.rows.Keys + {s.nextId}
    ensures r.Success? && Valid(s) && !MergesOnto(s, dto) ==> s.nextId !in s.rows
    ensures r.Success? && Valid(s) ==> Valid(r.value.0)
  {
    if TitleTaken(s, dto.title) then Failure(MovieAlreadyExists)
    else if dto.title.None? then Failure(NotNullConstraintViolation)
    else
      var id := SaveTarget(s, dto);
      var s' := Movies(s.rows[id := ToRow(dto, dto.title.value)], if MergesOnto(s, dto) then s.nextId else id + 1);
      assert forall i :: i in s.rows && s.rows[i].title == dto.title.value ==> i in TitleKeys(s, dto.title.value);
      Success((s', Enrich(s', reviews, id)))
  }

  /** update(id, edit): the movie must exist; a title different from the
      current one must not belong to another movie; then title and release
      date are copied from the edit, nulls included, and the row is saved. */
  function Update(s: Movies, reviews: ReviewRepository.Reviews, id: Id, edit: MovieEdit)
    : (r: Result<(Movies, MovieDto), Failure>)
    ensures id !in s.rows ==> r == Failure(MovieNotFound)
    ensures (id in s.rows && edit.title.Some? && edit.title.value != s.rows[id].title
             && TitleKeys(s, edit.title.value) - {id} != {}) ==> r == Failure(MovieTitleAlreadyExists)
    ensures id in s.rows && edit.title.None? ==> r == Failure(NotNullConstraintViolation)
    ensures r.Failure? ==> r.error in {MovieNotFound, MovieTitleAlreadyExists, NotNullConstraintViolation}
    ensures r.Success? <==>
            && id in s.rows && edit.title.Some?
            && (edit.title.value == s.rows[id].title || TitleKeys(s, edit.title.value) - {id} == {})
    ensures r.Success? ==>
            && id in s.rows && edit.title.Some?
            && var (s', out) := r.value;
            && s'.rows == s.rows[id := s.rows[id].(title := edit.title.value, releaseDate := edit.releaseDate)]
            && s'.nextId == s.nextId
            && out == Enrich(s', reviews, id)
    ensures r.Success? && Valid(s) ==> Valid(r.value.0)
  {
    if id !in s.rows then Failure(MovieNotFound)
    else
      var m := s.rows[id];
      if edit.title.Some? && edit.title.value != m.title && TitleKeys(s, edit.title.value) - {id} != {} then
        Failure(MovieTitleAlreadyExists)
      else if edit.title.None? then Failure(NotNullConstraintViolation)
      else
        var s' := s.(rows := s.rows[id := m.(title := edit.title.value, releaseDate := edit.releaseDate)]);
        assert forall i :: i in s.rows && i != id && s.rows[i].title == edit.title.value
                           ==> i in TitleKeys(s, edit.title.value) - {id};
        Success((s', Enrich(s', reviews, id)))
  }

  /** The id comparison in the title check never matters: a title different
      from the movie's own cannot be the movie's own, so the edit is refused
      exactly when some movie already has the new title. */
  lemma TitleConflictIsAnyHolder(s: Movies, reviews: ReviewRepository.Reviews, id: Id, edit: MovieEdit)
    requires id in s.rows && edit.title.Some? && edit.title.value != s.rows[id].title
    ensures Update(s, reviews, id, edit) == Failure(MovieTitleAlreadyExists)
            <==> TitleTaken(s, edit.title)
  {
    assert id !in TitleKeys(s, edit.title.value);
    assert TitleKeys(s, edit.title.value) - {id} == TitleKeys(s, edit.title.value);
  }

  /** Re-submitting a movie's own title never trips the title check. */
  lemma OwnTitleAccepted(s: Movies, reviews: ReviewRepository.Reviews, id: Id, releaseDate: Option<Date>)
    requires id in s.rows
    ensures Update(s, reviews, id, MovieEdit(Some(s.rows[id].title), releaseDate)).Success?
  {
  }

  /** The id-less update overload answers null. */
  function UpdateWithoutId(edit: MovieEdit): (r: Option<MovieDto>)
    ensures r.None?
  {
    None
  }

  /** delete: the movie must exist; then exactly that row goes. Every review
      row references its movie through a non-null foreign key with no cascade,
      so the database refuses to drop a movie that still has reviews. */
  function Delete(s: Movies, reviews: ReviewRepository.Reviews, id: Id): (r: Result<Movies, Failure>)
    ensures id !in s.rows ==> r == Failure(MovieNotFound)
    ensures id in s.rows && ReviewRepository.MovieKeys(reviews, id) != {} ==> r == Failure(ForeignKeyViolation)
    ensures r.Success? <==> id in s.rows && ReviewRepository.CountByMovieId(reviews, id) == 0
    ensures r.Success? ==> r.value.rows.Keys == s.rows.Keys - {id} && r.value.nextId == s.nextId
    ensures r.Success? ==> forall i :: i in r.value.rows ==> r.value.rows[i] == s.rows[i]
    ensures r.Success? && Valid(s) ==> Valid(r.value)
  {
    if id !in s.rows then Failure(MovieNotFound)
    else if ReviewRepository.MovieKeys(reviews, id) != {} then Failure(ForeignKeyViolation)
    else Success(s.(rows := s.rows - {id}))
  }

  /** findByTmdbId: the one movie imported from that TMDB id, if any. */
  function FindByTmdbId(s: Movies, reviews: ReviewRepository.Reviews, tmdbId: int): (r: Result<Option<MovieDto>, Failure>)
    ensures r == Success(None) <==> TmdbKeys(s, tmdbId) == {}
    ensures r.Failure? <==> |TmdbKeys(s, tmdbId)| > 1
    ensures r.Success? && r.value.Some? ==>
            && r.value.value.id.Some? && r.value.value.id.value in s.rows
            && r.value.value == Enrich(s, reviews, r.value.value.id.value)
            && s.rows[r.value.value.id.value].tmdbId == Some(tmdbId)
  {
    var found :- FindOne(TmdbKeys(s, tmdbId));
    match found
    case None => Success(None)
    case Some(i) =>
      assert i in TmdbKeys(s, tmdbId);
      Success(Some(Enrich(s, reviews, i)))
  }

  /** Every movie of a valid table is handed out as available. */
  lemma StoredMoviesAvailable(s: Movies, reviews: ReviewRepository.Reviews, id: Id)
    requires Valid(s) && id in s.rows
    ensures GetById(s, reviews, id).Some? && GetById(s, reviews, id).value.available
  {
  }

  /** A saved movie is found again under the id it was handed out with; a
      save that added a row is undone by deleting it, unless reviews already
      point at that id. */
  lemma SaveThenGetThenDelete(s: Movies, reviews: ReviewRepository.Reviews, dto: MovieDto)
    requires Valid(s) && Save(s, reviews, dto).Success?
    ensures var (s', out) := Save(s, reviews, dto).value;
            && out.id.Some?
            && GetById(s', reviews, out.id.value) == Some(out)
            && (!MergesOnto(s, dto) ==>
                 && out.id == Some(s.nextId)
                 && Delete(s', reviews, s.nextId)
                    == if ReviewRepository.CountByMovieId(reviews, s.nextId) == 0 then Success(s'.(rows := s.rows))
                       else Failure(ForeignKeyViolation))
  {
    var (s', out) := Save(s, reviews, dto).value;
    if !MergesOnto(s, dto) {
      assert s'.rows - {s.nextId} == s.rows;
    }
  }

  /** A save naming a stored movie's id replaces that movie in place: no row
      is added, the others are untouched, and the identity counter stays. */
  lemma SaveWithStoredIdReplaces(s: Movies, reviews: ReviewRepository.Reviews, dto: MovieDto, other: Id)
    requires Valid(s) && MergesOnto(s, dto) && Save(s, reviews, dto).Success?
    ensures var (s', out) := Save(s, reviews, dto).value;
            && |s'.rows| == |s.rows| && s'.nextId == s.nextId
            && s'.rows[dto.id.value].title == dto.title.value
            && (other in s.rows && other != dto.id.value ==> other in s'.rows && s'.rows[other] == s.rows[other])
  {
    var (s', out) := Save(s, reviews, dto).value;
    assert s'.rows.Keys == s.rows.Keys;
  }

  /** Saving the same record twice: the second save is refused. */
  lemma SaveTwiceRefused(s: Movies, reviews: ReviewRepository.Reviews, dto: MovieDto)
    requires Save(s, reviews, dto).Success?
    ensures Save(Save(s, reviews, dto).value.0, reviews, dto) == Failure(MovieAlreadyExists)
  {
    var s' := Save(s, reviews, dto).value.0;
    assert SaveTarget(s, dto) in TitleKeys(s', dto.title.value);
  }
}

=== FILE: movie_service.dfy ===
/** The movie service's own logic: importing a TMDB movie into the catalog at
    most once, and the mapping from TMDB details to a catalog record. */
module MovieService {
  import opened Wrappers
  import opened Exceptions
  import opened Tables
  import opened MovieEntity
  import opened MovieRepository
  import JavaLang
  import JavaTime
  import TmdbService
  import ReviewRepository

  /** The lower-case Spanish TMDB genre name each catalog genre is imported
      from; OTHER has none. */
  function SpanishName(g: Genre): Option<string> {
    match g
    case ACTION => Some("acción")
    case COMEDY => Some("comedia")
    case DRAMA => Some("drama")
    case HORROR => Some("terror")
    case SCI_FI => Some("ciencia ficción")
    case THRILLER => Some("suspense")
    case ROMANCE => Some("romance")
    case ANIMATED => Some("animación")
    case ADVENTURE => Some("aventura")
    case FANTASY => Some("fantasía")
    case MYSTERY => Some("misterio")
    case CRIME => Some("crimen")
    case DOCUMENTARY => Some("documental")
    case OTHER => None
  }

  /** mapTmdbGenreToOurGenre: the genre whose Spanish name the lower-cased TMDB
      name is; OTHER for a null or unlisted name. */
  function MapTmdbGenre(name: Option<string>): (g: Genre)
    ensures name.None? ==> g == OTHER
    ensures g != OTHER ==> name.Some? && SpanishName(g) == Some(JavaLang.ToLower(name.value))
    ensures name.Some? && g == OTHER ==> forall h :: SpanishName(h) != Some(JavaLang.ToLower(name.value))
  {
    match name
    case None => OTHER
    case Some(n) =>
      match JavaLang.ToLower(n)
      case "acción" => ACTION
      case "comedia" => COMEDY
      case "drama" => DRAMA
      case "terror" => HORROR
      case "ciencia ficción" => SCI_FI
      case "suspense" => THRILLER
      case "romance" => ROMANCE
      case "animación" => ANIMATED
      case "aventura" => ADVENTURE
      case "fantasía" => FANTASY
      case "misterio" => MYSTERY
      case "crimen" => CRIME
      case "documental" => DOCUMENTARY
      case _ => OTHER
  }

  /** Each listed name, in any letter case, imports as its genre. */
  lemma MapTmdbGenreInverse(g: Genre, name: string)
    requires SpanishName(g) == Some(JavaLang.ToLower(name))
    ensures MapTmdbGenre(Some(name)) == g
  {
  }

  /** The Spanish names are already lower case, so each maps back to its genre. */
  lemma SpanishNamesRoundTrip(g: Genre)
    requires g != OTHER
    ensures MapTmdbGenre(SpanishName(g)) == g
  {
    var n := SpanishName(g).value;
    forall i | 0 <= i < |n| ensures !JavaLang.IsUpper(n[i]) {
    }
    JavaLang.ToLowerOfLower(n);
    MapTmdbGenreInverse(g, n);
  }

  /** The genre of the first TMDB genre; OTHER when the list is null or empty. */
  function FirstGenre(genres: Option<seq<TmdbService.TmdbGenre>>): (g: Genre)
    ensures genres.None? || genres.value == [] ==> g == OTHER
    ensures genres.Some? && genres.value != [] ==> g == MapTmdbGenre(genres.value[0].name)
  {
    if genres.None? || genres.value == [] then OTHER else MapTmdbGenre(genres.value[0].name)
  }

  /** The release date: null for a null or empty text, and for text that does
      not parse; the parse failure is swallowed. */
  function ReleaseDate(text: Option<string>): (d: Option<Date>)
    ensures text.None? || text.value == "" ==> d.None?
    ensures d.Some? ==> text.Some? && JavaTime.ParseIsoDate(text.value) == d
    ensures text.Some? && text.value != "" ==> d == JavaTime.ParseIsoDate(text.value)
  {
    if text.None? || text.value == "" then None else JavaTime.ParseIsoDate(text.value)
  }

  /** mapTmdbToMovieDto: a new, available record with no reviews, carrying
      TMDB's title, runtime (0 when null), first genre, release date, id,
      image URLs, overview, original title and vote count. */
  function MapTmdbToMovie(details: TmdbService.TmdbDetails): (m: MovieDto)
    ensures m.id.None? && m.available && m.reviewCount == 0
    ensures m.title == details.title && m.tmdbId == details.id
    ensures m.duration == (if details.runtime.Some? then details.runtime.value else 0)
    ensures m.genre == FirstGenre(details.genres)
    ensures m.releaseDate == ReleaseDate(details.releaseDate)
    ensures m.posterUrl == details.images.posterUrl && m.backdropUrl == details.images.backdropUrl
  {
    MovieDto(None, details.title, details.runtime.GetOr(0), FirstGenre(details.genres),
             ReleaseDate(details.releaseDate), true, 0, details.id,
             details.images.posterUrl, details.images.backdropUrl, details.overview,
             details.originalTitle, details.voteCount)
  }

  /** importFromTmdb. A movie already imported from `tmdbId` is returned as it
      is, without asking TMDB. Otherwise `fetch` stands for TMDB's answer for
      that id; a null answer fails on the mapping, anything else is mapped
      (image URLs built first) and saved once. */
  function ImportFromTmdb(s: Movies, reviews: ReviewRepository.Reviews, tmdbId: int,
                          fetch: int -> Option<TmdbService.TmdbDetails>, imageBaseUrl: string)
    : (r: Result<(Movies, MovieDto), Failure>)
    ensures FindByTmdbId(s, reviews, tmdbId).Success? && FindByTmdbId(s, reviews, tmdbId).value.Some? ==>
              r == Success((s, FindByTmdbId(s, reviews, tmdbId).value.value))
    ensures FindByTmdbId(s, reviews, tmdbId) == Success(None) ==>
              if fetch(tmdbId).None? then r == Failure(NullReference)
              else r == Save(s, reviews, MapTmdbToMovie(TmdbService.GetMovieDetails(fetch(tmdbId), imageBaseUrl).value))
    ensures r.Failure? ==> r.error in {IncorrectResultSize, NullReference, MovieAlreadyExists, NotNullConstraintViolation}
  {
    var existing :- FindByTmdbId(s, reviews, tmdbId);
    if existing.Some? then Success((s, existing.value))
    else
      match TmdbService.GetMovieDetails(fetch(tmdbId), imageBaseUrl)
      case None => Failure(NullReference)
      case Some(details) => Save(s, reviews, MapTmdbToMovie(details))
  }

  /** Importing twice is importing once: when TMDB's answer carries the id it
      was asked for, a second import finds the saved movie and leaves the
      catalog as the first import left it. */
  lemma ImportIdempotent(s: Movies, reviews: ReviewRepository.Reviews, tmdbId: int,
                         fetch: int -> Option<TmdbService.TmdbDetails>, imageBaseUrl: string)
    requires ImportFromTmdb(s, reviews, tmdbId, fetch, imageBaseUrl).Success?
    requires fetch(tmdbId).Some? ==> fetch(tmdbId).value.id == Some(tmdbId)
    ensures var (s1, m1) := ImportFromTmdb(s, reviews, tmdbId, fetch, imageBaseUrl).value;
            ImportFromTmdb(s1, reviews, tmdbId, fetch, imageBaseUrl) == Success((s1, m1))
  {
    var found := FindByTmdbId(s, reviews, tmdbId);
    if found == Success(None) {
      var details := TmdbService.GetMovieDetails(fetch(tmdbId), imageBaseUrl).value;
      var dto := MapTmdbToMovie(details);
      var (s1, m1) := Save(s, reviews, dto).value;
      assert TmdbKeys(s1, tmdbId) == {s.nextId};
    }
  }

  /** A fresh import reads back by id: the new record is available, has no
      reviews beyond those already filed under its id, and carries TMDB's
      title, id, runtime, first genre and decorated image URLs. */
  lemma ImportReadsBack(s: Movies, reviews: ReviewRepository.Reviews, tmdbId: int,
                        fetch: int -> Option<TmdbService.TmdbDetails>, imageBaseUrl: string)
    requires FindByTmdbId(s, reviews, tmdbId) == Success(None)
    requires ImportFromTmdb(s, reviews, tmdbId, fetch, imageBaseUrl).Success?
    ensures fetch(tmdbId).Some?
    ensures var (s1, m1) := ImportFromTmdb(s, reviews, tmdbId, fetch, imageBaseUrl).value;
            var d := fetch(tmdbId).value;
            && GetById(s1, reviews, s.nextId) == Some(m1)
            && m1.id == Some(s.nextId) && m1.available
            && m1.reviewCount == ReviewRepository.CountByMovieId(reviews, s.nextId)
            && m1.title == d.title && m1.tmdbId == d.id
            && m1.duration == (if d.runtime.Some? then d.runtime.value else 0)
            && m1.genre == FirstGenre(d.genres)
            && m1.posterUrl == TmdbService.SetImageUrls(d.images, imageBaseUrl).posterUrl
            && m1.backdropUrl == TmdbService.SetImageUrls(d.images, imageBaseUrl).backdropUrl
  {
    var details := TmdbService.GetMovieDetails(fetch(tmdbId), imageBaseUrl).value;
    var dto := MapTmdbToMovie(details);
    assert ImportFromTmdb(s, reviews, tmdbId, fetch, imageBaseUrl) == Save(s, reviews, dto);
  }
}

=== FILE: rest_exception_handler.dfy ===
/** How a failure becomes an HTTP answer: the three movie errors and request
    validation get their own status and error code, everything else is a 500. */
module RestExceptionHandler {
  import opened Wrappers
  import opened Exceptions

  /** One error entry of a response body: a code and the exception's message. */
  datatype ErrorBody = ErrorBody(code: string, message: Option<string>)

  /** A status with either one error entry or, for validation, a list of them. */
  datatype Response = Single(status: int, error: ErrorBody) | Listing(status: int, errors: seq<ErrorBody>)

  /** The failures that have a handler of their own. */
  predicate Handled(f: Failure) {
    f.MovieAlreadyExists? || f.MovieNotFound? || f.MovieTitleAlreadyExists? || f.ArgumentNotValid?
  }

  /** The handler chosen for a failure, given the exception's message: a
      validation failure lists one entry per rejected field, in order, coded
      by the field's name and carrying its message. */
  function Handle(f: Failure, message: Option<string>): (r: Response)
    ensures f.MovieAlreadyExists? ==> r == Single(400, ErrorBody("movie-already-exists", message))
    ensures f.MovieNotFound? ==> r == Single(404, ErrorBody("movie-not-found", message))
    ensures f.MovieTitleAlreadyExists? ==> r == Single(400, ErrorBody("movie-title-already-exists", message))
    ensures f.ArgumentNotValid? ==>
              && r.Listing? && r.status == 400 && |r.errors| == |f.errors|
              && forall i :: 0 <= i < |f.errors| ==>
                   r.errors[i] == ErrorBody(f.errors[i].field, Some(f.errors[i].message))
    ensures !Handled(f) ==> r == Single(500, ErrorBody("unknown-error", message))
  {
    match f
    case MovieAlreadyExists => Single(400, ErrorBody("movie-already-exists", message))
    case MovieNotFound => Single(404, ErrorBody("movie-not-found", message))
    case MovieTitleAlreadyExists => Single(400, ErrorBody("movie-title-already-exists", message))
    case ArgumentNotValid(errors) =>
      Listing(400, seq(|errors|, i requires 0 <= i < |errors| => ErrorBody(errors[i].field, Some(errors[i].message))))
    case _ => Single(500, ErrorBody("unknown-error", message))
  }

  /** The status alone: 400, 404 or 500, and 500 exactly for the failures
      without a handler of their own. */
  lemma StatusClasses(f: Failure, message: Option<string>)
    ensures Handle(f, message).status in {400, 404, 500}
    ensures Handle(f, message).status == 500 <==> !Handled(f)
    ensures Handle(f, message).status == 404 <==> f.MovieNotFound?
  {
  }

  /** The review and account errors carry no handler of their own: a duplicate
      review, a missing review, editing someone else's review, a missing user,
      a taken username or email, and deleting a movie that still has reviews
      are all answered 500 "unknown-error". */
  lemma DomainErrorsAreUnknown(message: Option<string>)
    ensures forall f :: f in {ReviewAlreadyExists, ReviewNotFound, UnauthorizedReviewAccess, UserNotFound, UserAlreadyExists,
                              ForeignKeyViolation}
              ==> Handle(f, message) == Single(500, ErrorBody("unknown-error", message))
  {
  }
}

=== FILE: review_entity.dfy ===
/** A row of the `reviews` table: one user's rating of one movie. */
module ReviewEntity {
  import opened Wrappers
  import opened Exceptions
  import opened Tables

  /** The author and the movie are mandatory foreign keys, so they are plain ids
      here; the comment is optional text; `createdAt` is written once at insert. */
  datatype Review = Review(
    userId: Id,
    movieId: Id,
    rating: int,
    comment: Option<string>,
    createdAt: int,
    updatedAt: int)

  /** The 1..5 star bound the entity enforces on insert and on update. */
  predicate InRange(rating: int) {
    1 <= rating <= 5
  }

  /** validateRating, the entity's pre-persist and pre-update hook: a missing or
      out-of-range rating aborts the write. */
  function ValidateRating(rating: Option<int>): (r: Result<int, Failure>)
    ensures r.Success? <==> rating.Some? && InRange(rating.value)
    ensures r.Success? ==> r.value == rating.value
    ensures r.Failure? ==> r.error == IllegalArgument(RatingOutOfRange)
  {
    match rating
    case None => Failure(IllegalArgument(RatingOutOfRange))
    case Some(v) => if InRange(v) then Success(v) else Failure(IllegalArgument(RatingOutOfRange))
  }
}

=== FILE: review_repository.dfy ===
/** The review store: creation guarded by user, movie and one-review-per-pair
    checks, and update/delete guarded by existence and authorship. */
module ReviewRepository {
  import opened Wrappers
  import opened Exceptions
  import opened Tables
  import opened ReviewEntity

  /** The reviews table and the next identity value the database hands out. */
  datatype Reviews = Reviews(rows: map<Id, Review>, nextId: Id)

  /** At most one review per (user, movie) pair. */
  ghost predicate OnePerPair(rows: map<Id, Review>) {
    forall i, j ::
      i in rows && j in rows && rows[i].userId == rows[j].userId && rows[i].movieId == rows[j].movieId
      ==> i == j
  }

  /** The store invariant: one review per pair, every rating within bounds,
      every id below the identity counter. */
  ghost predicate Valid(s: Reviews) {
    && OnePerPair(s.rows)
    && (forall i :: i in s.rows ==> i < s.nextId && InRange(s.rows[i].rating))
  }

  /** Ids of the reviews `userId` wrote about `movieId`. */
  function PairKeys(s: Reviews, userId: Id, movieId: Id): set<Id> {
    set i | i in s.rows && s.rows[i].userId == userId && s.rows[i].movieId == movieId
  }

  /** Ids of the reviews about `movieId`. */
  function MovieKeys(s: Reviews, movieId: Id): set<Id> {
    set i | i in s.rows && s.rows[i].movieId == movieId
  }

  function ExistsByUserIdAndMovieId(s: Reviews, userId: Id, movieId: Id): bool {
    PairKeys(s, userId, movieId) != {}
  }

  /** countByMovieId. */
  function CountByMovieId(s: Reviews, movieId: Id): nat {
    |MovieKeys(s, movieId)|
  }

  /** findByMovieId, as the sub-table of that movie's reviews. */
  function ByMovieId(s: Reviews, movieId: Id): (m: map<Id, Review>)
    ensures forall i :: i in m <==> i in s.rows && s.rows[i].movieId == movieId
    ensures forall i :: i in m ==> m[i] == s.rows[i]
  {
    map i | i in s.rows && s.rows[i].movieId == movieId :: s.rows[i]
  }

  /** findByUserId, as the sub-table of that user's reviews. */
  function ByUserId(s: Reviews, userId: Id): (m: map<Id, Review>)
    ensures forall i :: i in m <==> i in s.rows && s.rows[i].userId == userId
    ensures forall i :: i in m ==> m[i] == s.rows[i]
  {
    map i | i in s.rows && s.rows[i].userId == userId :: s.rows[i]
  }

  /** save: the author must exist, then the movie, then the pair must be free;
      only then is the rating checked (by the entity hook) and the row inserted. */
  function Create(s: Reviews, userIds: set<Id>, movieIds: set<Id>, userId: Id, movieId: Id,
                  rating: Option<int>, comment: Option<string>, now: int): (r: Result<(Reviews, Id), Failure>)
    ensures userId !in userIds ==> r == Failure(UserNotFound)
    ensures userId in userIds && movieId !in movieIds ==> r == Failure(MovieNotFound)
    ensures userId in userIds && movieId in movieIds && ExistsByUserIdAndMovieId(s, userId, movieId)
            ==> r == Failure(ReviewAlreadyExists)
    ensures r.Success? <==>
            && userId in userIds && movieId in movieIds
            && !ExistsByUserIdAndMovieId(s, userId, movieId)
            && rating.Some? && InRange(rating.value)
    ensures r.Failure? ==>
            r.error in {UserNotFound, MovieNotFound, ReviewAlreadyExists, IllegalArgument(RatingOutOfRange)}
    ensures r.Success? ==>
            && r.value.0.rows == s.rows[r.value.1 := Review(userId, movieId, rating.value, comment, now, now)]
            && r.value.0.nextId > r.value.1
    ensures r.Success? && Valid(s) ==> r.value.1 !in s.rows && Valid(r.value.0)
  {
    if userId !in userIds then Failure(UserNotFound)
    else if movieId !in movieIds then Failure(MovieNotFound)
    else if ExistsByUserIdAndMovieId(s, userId, movieId) then Failure(ReviewAlreadyExists)
    else
      var stars :- ValidateRating(rating);
      var id := s.nextId;
      var s' := Reviews(s.rows[id := Review(userId, movieId, stars, comment, now, now)], id + 1);
      assert Valid(s) ==> Valid(s') by {
        if Valid(s) {
          PairMembers(s, userId, movieId);
        }
      }
      Success((s', id))
  }

  /** update: the review must exist, then belong to the caller. A supplied
      rating or comment overwrites the stored one, an absent one keeps it. An
      update that changes nothing is not written (so no hook runs); otherwise the
      rating is re-checked and the update time refreshed. */
  function Update(s: Reviews, reviewId: Id, rating: Option<int>, comment: Option<string>,
                  callerId: Id, now: int): (r: Result<(Reviews, Review), Failure>)
    ensures reviewId !in s.rows ==> r == Failure(ReviewNotFound)
    ensures reviewId in s.rows && s.rows[reviewId].userId != callerId ==> r == Failure(UnauthorizedReviewAccess)
    ensures r.Success? ==> reviewId in s.rows && s.rows[reviewId].userId == callerId
    ensures r.Success? ==>
            var (s', v) := r.value;
            var before := s.rows[reviewId];
            && s'.rows == s.rows[reviewId := v]
            && s'.nextId == s.nextId
            && v.userId == before.userId && v.movieId == before.movieId
            && v.createdAt == before.createdAt
            && v.rating == rating.GetOr(before.rating)
            && v.comment == (if comment.Some? then comment else before.comment)
            && v.updatedAt == (if v.rating == before.rating && v.comment == before.comment
                               then before.updatedAt else now)
    ensures Valid(s) && reviewId in s.rows && s.rows[reviewId].userId == callerId ==>
            (r.Success? <==> rating.None? || InRange(rating.value))
    ensures r.Failure? ==> r.error in {ReviewNotFound, UnauthorizedReviewAccess, IllegalArgument(RatingOutOfRange)}
    ensures Valid(s) && r.Success? ==> Valid(r.value.0)
  {
    if reviewId !in s.rows then Failure(ReviewNotFound)
    else
      var current := s.rows[reviewId];
      if current.userId != callerId then Failure(UnauthorizedReviewAccess)
      else
        var edited := current.(rating := rating.GetOr(current.rating),
                               comment := if comment.Some? then comment else current.comment);
        if edited == current then Success((s, current))
        else
          match ValidateRating(Some(edited.rating))
          case Failure(e) => Failure(e)
          case Success(_) =>
            var saved := edited.(updatedAt := now);
            var s' := s.(rows := s.rows[reviewId := saved]);
            assert Valid(s) ==> Valid(s') by {
              if Valid(s) {
                forall i, j | i in s'.rows && j in s'.rows && s'.rows[i].userId == s'.rows[j].userId
                              && s'.rows[i].movieId == s'.rows[j].movieId
                  ensures i == j
                {
                  assert s.rows[i].userId == s.rows[j].userId && s.rows[i].movieId == s.rows[j].movieId;
                }
              }
            }
            Success((s', saved))
  }

  /** delete: the review must exist, then belong to the caller; then exactly
      that row disappears. */
  function Delete(s: Reviews, reviewId: Id, callerId: Id): (r: Result<Reviews, Failure>)
    ensures reviewId !in s.rows ==> r == Failure(ReviewNotFound)
    ensures reviewId in s.rows && s.rows[reviewId].userId != callerId ==> r == Failure(UnauthorizedReviewAccess)
    ensures r.Success? <==> reviewId in s.rows && s.rows[reviewId].userId == callerId
    ensures r.Success? ==>
            && reviewId !in r.value.rows
            && r.value.rows.Keys <= s.rows.Keys
            && (forall i :: i in s.rows && i != reviewId ==> i in r.value.rows && r.value.rows[i] == s.rows[i])
            && r.value.nextId == s.nextId
    ensures Valid(s) && r.Success? ==> Valid(r.value)
  {
    if reviewId !in s.rows then Failure(ReviewNotFound)
    else if s.rows[reviewId].userId != callerId then Failure(UnauthorizedReviewAccess)
    else Success(s.(rows := s.rows - {reviewId}))
  }

  /** getById. */
  function GetById(s: Reviews, reviewId: Id): (r: Result<Review, Failure>)
    ensures r.Failure? <==> reviewId !in s.rows
    ensures r.Failure? ==> r.error == ReviewNotFound
    ensures r.Success? ==> r.value == s.rows[reviewId]
  {
    if reviewId in s.rows then Success(s.rows[reviewId]) else Failure(ReviewNotFound)
  }

  /** getByUserIdAndMovieId: the pair's review, ReviewNotFound when there is
      none, and the query's size error if the pair had several. */
  function GetByUserIdAndMovieId(s: Reviews, userId: Id, movieId: Id): (r: Result<Review, Failure>)
    ensures r.Success? ==> r.value.userId == userId && r.value.movieId == movieId && r.value in s.rows.Values
    ensures r == Failure(ReviewNotFound) <==> !ExistsByUserIdAndMovieId(s, userId, movieId)
    ensures Valid(s) ==> (r.Success? <==> ExistsByUserIdAndMovieId(s, userId, movieId))
  {
    AtMostOnePerPair(s, userId, movieId);
    var found :- FindOne(PairKeys(s, userId, movieId));
    match found
    case None => Failure(ReviewNotFound)
    case Some(i) =>
      assert i in PairKeys(s, userId, movieId);
      Success(s.rows[i])
  }

  /** Every review of the pair is among the pair's keys. */
  lemma PairMembers(s: Reviews, userId: Id, movieId: Id)
    ensures forall k :: k in s.rows && s.rows[k].userId == userId && s.rows[k].movieId == movieId
                        ==> k in PairKeys(s, userId, movieId)
  {
  }

  /** Under the invariant a pair selects at most one review. */
  lemma AtMostOnePerPair(s: Reviews, userId: Id, movieId: Id)
    ensures OnePerPair(s.rows) ==> |PairKeys(s, userId, movieId)| <= 1
  {
    if OnePerPair(s.rows) {
      var ks := PairKeys(s, userId, movieId);
      forall a, b | a in ks && b in ks
        ensures a == b
      {
        assert s.rows[a].userId == s.rows[b].userId && s.rows[a].movieId == s.rows[b].movieId;
      }
      AllEqualAtMostOne(ks);
    }
  }

  /** After a successful create, the pair lookup returns exactly the new review. */
  lemma CreateThenFind(s: Reviews, userIds: set<Id>, movieIds: set<Id>, userId: Id, movieId: Id,
                       rating: Option<int>, comment: Option<string>, now: int)
    requires Create(s, userIds, movieIds, userId, movieId, rating, comment, now).Success?
    ensures var (s', id) := Create(s, userIds, movieIds, userId, movieId, rating, comment, now).value;
            GetByUserIdAndMovieId(s', userId, movieId) == Success(s'.rows[id])
  {
    var (s', id) := Create(s, userIds, movieIds, userId, movieId, rating, comment, now).value;
    assert PairKeys(s, userId, movieId) == {};
    assert PairKeys(s', userId, movieId) == PairKeys(s, userId, movieId) + {id};
  }

  /** A second create for the same pair is refused and stores nothing. */
  lemma CreateTwiceRefused(s: Reviews, userIds: set<Id>, movieIds: set<Id>, userId: Id, movieId: Id,
                           rating: Option<int>, rating2: Option<int>, comment: Option<string>,
                           comment2: Option<string>, now: int, now2: int)
    requires Create(s, userIds, movieIds, userId, movieId, rating, comment, now).Success?
    ensures var (s', id) := Create(s, userIds, movieIds, userId, movieId, rating, comment, now).value;
            Create(s', userIds, movieIds, userId, movieId, rating2, comment2, now2) == Failure(ReviewAlreadyExists)
  {
    var (s', id) := Create(s, userIds, movieIds, userId, movieId, rating, comment, now).value;
    assert id in PairKeys(s', userId, movieId);
  }

  /** The author deleting a review just created restores the previous table. */
  lemma DeleteUndoesCreate(s: Reviews, userIds: set<Id>, movieIds: set<Id>, userId: Id, movieId: Id,
                           rating: Option<int>, comment: Option<string>, now: int)
    requires Valid(s)
    requires Create(s, userIds, movieIds, userId, movieId, rating, comment, now).Success?
    ensures var (s', id) := Create(s, userIds, movieIds, userId, movieId, rating, comment, now).value;
            Delete(s', id, userId).Success? && Delete(s', id, userId).value.rows == s.rows
  {
    var (s', id) := Create(s, userIds, movieIds, userId, movieId, rating, comment, now).value;
    assert s'.rows - {id} == s.rows;
  }

  /** The listing of a movie's reviews has as many entries as its count. */
  lemma ListingMatchesCount(s: Reviews, movieId: Id)
    ensures |ByMovieId(s, movieId).Keys| == CountByMovieId(s, movieId)
  {
    assert ByMovieId(s, movieId).Keys == MovieKeys(s, movieId);
  }

  /** A create adds exactly the new review to its author's listing and leaves
      every other user's listing as it was. */
  lemma CreateListsForAuthor(s: Reviews, userIds: set<Id>, movieIds: set<Id>, userId: Id, movieId: Id,
                             rating: Option<int>, comment: Option<string>, now: int, other: Id)
    requires Valid(s)
    requires Create(s, userIds, movieIds, userId, movieId, rating, comment, now).Success?
    ensures var (s', id) := Create(s, userIds, movieIds, userId, movieId, rating, comment, now).value;
            && ByUserId(s', userId) == ByUserId(s, userId)[id := s'.rows[id]]
            && (other != userId ==> ByUserId(s', other) == ByUserId(s, other))
  {
    var (s', id) := Create(s, userIds, movieIds, userId, movieId, rating, comment, now).value;
    assert ByUserId(s', userId).Keys == ByUserId(s, userId).Keys + {id};
    if other != userId {
      assert ByUserId(s', other).Keys == ByUserId(s, other).Keys;
    }
  }

  /** Inserting a review under a fresh id adds that id to its movie's keys
      only. */
  lemma InsertMovieKeys(s: Reviews, s': Reviews, id: Id, v: Review, other: Id)
    requires id !in s.rows && s'.rows == s.rows[id := v]
    ensures MovieKeys(s', v.movieId) == MovieKeys(s, v.movieId) + {id}
    ensures other != v.movieId ==> MovieKeys(s', other) == MovieKeys(s, other)
  {
  }

  /** A create adds one to its movie's review count and leaves every other
      movie's count alone. */
  lemma CreateCountsOneMore(s: Reviews, userIds: set<Id>, movieIds: set<Id>, userId: Id, movieId: Id,
                            rating: Option<int>, comment: Option<string>, now: int, other: Id)
    requires Valid(s)
    requires Create(s, userIds, movieIds, userId, movieId, rating, comment, now).Success?
    ensures var s' := Create(s, userIds, movieIds, userId, movieId, rating, comment, now).value.0;
            && CountByMovieId(s', movieId) == CountByMovieId(s, movieId) + 1
            && (other != movieId ==> CountByMovieId(s', other) == CountByMovieId(s, other))
  {
    var (s', id) := Create(s, userIds, movieIds, userId, movieId, rating, comment, now).value;
    InsertMovieKeys(s, s', id, s'.rows[id], other);
  }

  /** A delete removes one from its movie's review count and leaves every other
      movie's count alone. */
  lemma DeleteCountsOneLess(s: Reviews, reviewId: Id, callerId: Id, other: Id)
    requires Delete(s, reviewId, callerId).Success?
    ensures var s' := Delete(s, reviewId, callerId).value;
            var movieId := s.rows[reviewId].movieId;
            && CountByMovieId(s', movieId) + 1 == CountByMovieId(s, movieId)
            && (other != movieId ==> CountByMovieId(s', other) == CountByMovieId(s, other))
  {
    var s' := Delete(s, reviewId, callerId).value;
    var movieId := s.rows[reviewId].movieId;
    assert MovieKeys(s, movieId) == MovieKeys(s', movieId) + {reviewId};
    if other != movieId {
      assert MovieKeys(s', other) == MovieKeys(s, other);
    }
  }

  /** An update never moves a review to another movie, so no count changes. */
  lemma UpdateKeepsCounts(s: Reviews, reviewId: Id, rating: Option<int>, comment: Option<string>,
                          callerId: Id, now: int, movieId: Id)
    requires Update(s, reviewId, rating, comment, callerId, now).Success?
    ensures CountByMovieId(Update(s, reviewId, rating, comment, callerId, now).value.0, movieId)
            == CountByMovieId(s, movieId)
  {
    var s' := Update(s, reviewId, rating, comment, callerId, now).value.0;
    assert MovieKeys(s', movieId) == MovieKeys(s, movieId);
  }
}

=== FILE: security_config.dfy ===
/** The request gate: an ordered list of (method, path pattern) rules where the
    first rule that matches decides what the request needs, a default for
    requests no rule matches, the decision taken for a given principal, and the
    lookup that turns a login name into an account. */
module SecurityConfig {
  import opened Wrappers
  import opened Exceptions
  import opened Tables
  import opened UserEntity
  import UserRepository

  /** The request methods the rules tell apart. The method-specific rules
      name only these four: a HEAD, OPTIONS or PATCH request on the movie or
      review paths would fall through to "any other request needs a login",
      while the entries without a method admit it. Those methods are not
      modelled. */
  datatype Method = GET | POST | PUT | DELETE

  /** A request path as its segments: "/movies/7" is ["movies", "7"]. */
  type Path = seq<string>

  /** "/a/b" matches that path only; "/a/b/" followed by a double star matches it and everything below it. */
  datatype Pattern = Exact(segments: Path) | Below(segments: Path)

  datatype Access = Public | Authenticated | HasRole(role: Role)

  /** A matcher with no method applies to every method. */
  datatype Rule = Rule(verb: Option<Method>, pattern: Pattern, access: Access)

  /** The path begins with the given segments, compared one at a time. */
  predicate StartsWith(p: Path, segs: Path)
    decreases |segs|
  {
    |segs| == 0 || (|p| > 0 && p[0] == segs[0] && StartsWith(p[1..], segs[1..]))
  }

  /** Segment-by-segment comparison is the prefix relation on paths. */
  lemma {:induction false} StartsWithIsPrefix(p: Path, segs: Path)
    ensures StartsWith(p, segs) <==> |segs| <= |p| && p[..|segs|] == segs
    decreases |segs|
  {
    if |segs| > 0 && |p| > 0 {
      StartsWithIsPrefix(p[1..], segs[1..]);
      if |segs| <= |p| {
        assert p[..|segs|] == [p[0]] + p[1..][..|segs| - 1];
        assert segs == [segs[0]] + segs[1..];
      }
    }
  }

  predicate PatternMatches(pat: Pattern, p: Path) {
    match pat
    case Exact(segs) => p == segs
    case Below(segs) => StartsWith(p, segs)
  }

  predicate RuleMatches(rule: Rule, m: Method, p: Path) {
    (rule.verb.None? || rule.verb.value == m) && PatternMatches(rule.pattern, p)
  }

  /** The configured rules, in order. A matcher listing two patterns is written
      as two adjacent rules with the same method and access, which decides the
      same under first-match. */
  const Rules: seq<Rule> := [
    Rule(None, Below(["auth"]), Public),
    Rule(None, Exact(["hello"]), Public),
    Rule(None, Below(["swagger-ui"]), Public),
    Rule(None, Exact(["swagger-ui.html"]), Public),
    Rule(None, Below(["v3", "api-docs"]), Public),
    Rule(None, Below(["api-docs"]), Public),
    Rule(None, Below(["swagger-resources"]), Public),
    Rule(None, Below(["webjars"]), Public),
    Rule(Some(GET), Exact(["movies"]), Public),
    Rule(Some(GET), Below(["movies"]), Public),
    Rule(Some(POST), Exact(["movies"]), HasRole(ADMIN)),
    Rule(Some(PUT), Below(["movies"]), HasRole(ADMIN)),
    Rule(Some(DELETE), Below(["movies"]), HasRole(ADMIN)),
    Rule(Some(POST), Exact(["movies", "suggest"]), Authenticated),
    Rule(Some(GET), Below(["reviews"]), Public),
    Rule(Some(POST), Exact(["reviews"]), Authenticated),
    Rule(Some(PUT), Below(["reviews"]), Authenticated),
    Rule(Some(DELETE), Below(["reviews"]), Authenticated)
  ]

  /** What a request that matches no rule needs. */
  const Fallback: Access := Authenticated

  /** The position of the first rule that matches, if any. */
  function FirstMatch(rules: seq<Rule>, m: Method, p: Path): (r: Option<nat>)
    ensures r.Some? ==> r.value < |rules| && RuleMatches(rules[r.value], m, p)
    ensures r.Some? ==> forall j :: 0 <= j < r.value ==> !RuleMatches(rules[j], m, p)
    ensures r.None? ==> forall j :: 0 <= j < |rules| ==> !RuleMatches(rules[j], m, p)
  {
    if |rules| == 0 then None
    else if RuleMatches(rules[0], m, p) then Some(0)
    else
      match FirstMatch(rules[1..], m, p)
      case None => None
      case Some(i) => Some(i + 1)
  }

  /** What a request needs: the access of the first matching rule, or the fallback. */
  function Requirement(m: Method, p: Path): Access {
    match FirstMatch(Rules, m, p)
    case None => Fallback
    case Some(i) => Rules[i].access
  }

  /** The first-match rule as a statement: rule `k` matches, no earlier rule does. */
  lemma FirstMatchIs(rules: seq<Rule>, m: Method, p: Path, k: nat)
    requires k < |rules| && RuleMatches(rules[k], m, p)
    requires forall j :: 0 <= j < k ==> !RuleMatches(rules[j], m, p)
    ensures FirstMatch(rules, m, p) == Some(k)
  {
    var r := FirstMatch(rules, m, p);
    assert r.Some?;
    assert !(r.value < k);
    assert !(k < r.value);
  }

  /** No rule matches: the fallback applies. */
  lemma NoRuleMatches(m: Method, p: Path)
    requires forall j :: 0 <= j < |Rules| ==> !RuleMatches(Rules[j], m, p)
    ensures Requirement(m, p) == Fallback
  {
  }

  /** Every route the controllers serve, with its path variables. */
  datatype Endpoint =
    | Register | Login | AuthMe
    | ListMovies | SuggestMovies | GetMovie(id: string) | CreateMovie | UpdateMovie(id: string)
    | DeleteMovie(id: string) | ImportMovie(tmdbId: string)
    | CreateReview | UpdateReview(id: string) | DeleteReview(id: string) | GetReview(id: string)
    | ReviewsOfMovie(movieId: string) | ReviewsOfUser(userId: string)
    | ReviewOfUserForMovie(userId: string, movieId: string)
    | AverageRating(movieId: string) | ReviewCount(movieId: string)
    | TmdbSearch | TmdbMovie(tmdbId: string) | TmdbPopular | TmdbTopRated | TmdbNowPlaying | TmdbUpcoming
    | CurrentUser | UpdateProfile | MyReviews

  /** The method and path each controller mapping answers. */
  function Route(e: Endpoint): (Method, Path) {
    match e
    case Register => (POST, ["auth", "register"])
    case Login => (POST, ["auth", "login"])
    case AuthMe => (GET, ["auth", "me"])
    case ListMovies => (GET, ["movies"])
    case SuggestMovies => (POST, ["movies", "suggest"])
    case GetMovie(id) => (GET, ["movies", id])
    case CreateMovie => (POST, ["movies"])
    case UpdateMovie(id) => (PUT, ["movies", id])
    case DeleteMovie(id) => (DELETE, ["movies", id])
    case ImportMovie(id) => (POST, ["movies", "import-from-tmdb", id])
    case CreateReview => (POST, ["reviews"])
    case UpdateReview(id) => (PUT, ["reviews", id])
    case DeleteReview(id) => (DELETE, ["reviews", id])
    case GetReview(id) => (GET, ["reviews", id])
    case ReviewsOfMovie(m) => (GET, ["reviews", "movie", m])
    case ReviewsOfUser(u) => (GET, ["reviews", "user", u])
    case ReviewOfUserForMovie(u, m) => (GET, ["reviews", "user", u, "movie", m])
    case AverageRating(m) => (GET, ["reviews", "movie", m, "average"])
    case ReviewCount(m) => (GET, ["reviews", "movie", m, "count"])
    case TmdbSearch => (GET, ["tmdb", "search"])
    case TmdbMovie(id) => (GET, ["tmdb", "movie", id])
    case TmdbPopular => (GET, ["tmdb", "popular"])
    case TmdbTopRated => (GET, ["tmdb", "top-rated"])
    case TmdbNowPlaying => (GET, ["tmdb", "now-playing"])
    case TmdbUpcoming => (GET, ["tmdb", "upcoming"])
    case CurrentUser => (GET, ["users", "me"])
    case UpdateProfile => (PUT, ["users", "me"])
    case MyReviews => (GET, ["users", "me", "reviews"])
  }

  /** The access each route ends up with: authentication endpoints and catalog
      and review reads are public; creating, editing and deleting a movie need
      ADMIN; asking for suggestions and importing from TMDB need only a login,
      as do review writes, the TMDB proxy and the profile routes. */
  function Expected(e: Endpoint): Access {
    match e
    case Register | Login | AuthMe => Public
    case ListMovies | GetMovie(_) => Public
    case CreateMovie | UpdateMovie(_) | DeleteMovie(_) => HasRole(ADMIN)
    case SuggestMovies | ImportMovie(_) => Authenticated
    case CreateReview | UpdateReview(_) | DeleteReview(_) => Authenticated
    case GetReview(_) | ReviewsOfMovie(_) | ReviewsOfUser(_) | ReviewOfUserForMovie(_, _)
       | AverageRating(_) | ReviewCount(_) => Public
    case TmdbSearch | TmdbMovie(_) | TmdbPopular | TmdbTopRated | TmdbNowPlaying | TmdbUpcoming => Authenticated
    case CurrentUser | UpdateProfile | MyReviews => Authenticated
  }

  /** The authentication routes are public: the first rule takes them. */
  lemma AuthRoutes(e: Endpoint)
    requires e.Register? || e.Login? || e.AuthMe?
    ensures Requirement(Route(e).0, Route(e).1) == Expected(e)
  {
    FirstMatchIs(Rules, Route(e).0, Route(e).1, 0);
  }

  /** Movie reads are public and create, edit and delete need ADMIN, but the
      suggestion and import routes need only a login: POST is matched on the
      bare collection path only. */
  lemma MovieRoutes(e: Endpoint)
    requires e.ListMovies? || e.SuggestMovies? || e.GetMovie? || e.CreateMovie?
          || e.UpdateMovie? || e.DeleteMovie? || e.ImportMovie?
    ensures Requirement(Route(e).0, Route(e).1) == Expected(e)
  {
    var (m, p) := Route(e);
    match e
    case ListMovies => FirstMatchIs(Rules, m, p, 8);
    case SuggestMovies => FirstMatchIs(Rules, m, p, 13);
    case GetMovie(_) => FirstMatchIs(Rules, m, p, 9);
    case CreateMovie => FirstMatchIs(Rules, m, p, 10);
    case UpdateMovie(_) => FirstMatchIs(Rules, m, p, 11);
    case DeleteMovie(_) => FirstMatchIs(Rules, m, p, 12);
    case ImportMovie(_) => NoRuleMatches(m, p);
  }

  /** Review reads are public; review writes need a login. */
  lemma ReviewRoutes(e: Endpoint)
    requires e.CreateReview? || e.UpdateReview? || e.DeleteReview? || e.GetReview?
          || e.ReviewsOfMovie? || e.ReviewsOfUser? || e.ReviewOfUserForMovie?
          || e.AverageRating? || e.ReviewCount?
    ensures Requirement(Route(e).0, Route(e).1) == Expected(e)
  {
    var (m, p) := Route(e);
    match e
    case CreateReview => FirstMatchIs(Rules, m, p, 15);
    case UpdateReview(_) => FirstMatchIs(Rules, m, p, 16);
    case DeleteReview(_) => FirstMatchIs(Rules, m, p, 17);
    case GetReview(_) => FirstMatchIs(Rules, m, p, 14);
    case ReviewsOfMovie(_) => FirstMatchIs(Rules, m, p, 14);
    case ReviewsOfUser(_) => FirstMatchIs(Rules, m, p, 14);
    case ReviewOfUserForMovie(_, _) => FirstMatchIs(Rules, m, p, 14);
    case AverageRating(_) => FirstMatchIs(Rules, m, p, 14);
    case ReviewCount(_) => FirstMatchIs(Rules, m, p, 14);
  }

  /** No rule names the TMDB proxy or the profile routes: the fallback applies. */
  lemma FallbackRoutes(e: Endpoint)
    requires e.TmdbSearch? || e.TmdbMovie? || e.TmdbPopular? || e.TmdbTopRated?
          || e.TmdbNowPlaying? || e.TmdbUpcoming? || e.CurrentUser? || e.UpdateProfile? || e.MyReviews?
    ensures Requirement(Route(e).0, Route(e).1) == Expected(e)
  {
    var (m, p) := Route(e);
    match e
    case TmdbSearch => NoRuleMatches(m, p);
    case TmdbMovie(_) => NoRuleMatches(m, p);
    case TmdbPopular => NoRuleMatches(m, p);
    case TmdbTopRated => NoRuleMatches(m, p);
    case TmdbNowPlaying => NoRuleMatches(m, p);
    case TmdbUpcoming => NoRuleMatches(m, p);
    case CurrentUser => NoRuleMatches(m, p);
    case UpdateProfile => NoRuleMatches(m, p);
    case MyReviews => NoRuleMatches(m, p);
  }

  /** The rule table gives every route exactly the access listed above,
      whatever its path variables hold. */
  lemma RouteRequirements(e: Endpoint)
    ensures Requirement(Route(e).0, Route(e).1) == Expected(e)
  {
    if e.Register? || e.Login? || e.AuthMe? {
      AuthRoutes(e);
    } else if e.ListMovies? || e.SuggestMovies? || e.GetMovie? || e.CreateMovie?
           || e.UpdateMovie? || e.DeleteMovie? || e.ImportMovie? {
      MovieRoutes(e);
    } else if e.CreateReview? || e.UpdateReview? || e.DeleteReview? || e.GetReview?
           || e.ReviewsOfMovie? || e.ReviewsOfUser? || e.ReviewOfUserForMovie?
           || e.AverageRating? || e.ReviewCount? {
      ReviewRoutes(e);
    } else {
      FallbackRoutes(e);
    }
  }

  /** Everything under /auth is public whatever the method: the first rule. */
  lemma AuthIsPublic(m: Method, p: Path)
    requires StartsWith(p, ["auth"])
    ensures Requirement(m, p) == Public
  {
    FirstMatchIs(Rules, m, p, 0);
  }

  /** Reading /movies or anything below it is public. */
  lemma MovieReadsArePublic(p: Path)
    requires StartsWith(p, ["movies"])
    ensures Requirement(GET, p) == Public
  {
    if p == ["movies"] {
      FirstMatchIs(Rules, GET, p, 8);
    } else {
      FirstMatchIs(Rules, GET, p, 9);
    }
  }

  /** Editing or deleting anything below /movies needs ADMIN, and so does
      posting to /movies itself. */
  lemma MovieWritesNeedAdmin(m: Method, p: Path)
    requires ((m == PUT || m == DELETE) && StartsWith(p, ["movies"])) || (m == POST && p == ["movies"])
    ensures Requirement(m, p) == HasRole(ADMIN)
  {
    if m == POST {
      FirstMatchIs(Rules, m, p, 10);
    } else if m == PUT {
      FirstMatchIs(Rules, m, p, 11);
    } else {
      FirstMatchIs(Rules, m, p, 12);
    }
  }

  /** A POST to any path strictly below /movies needs only a login. */
  lemma PostsBelowMoviesNeedOnlyLogin(p: Path)
    requires StartsWith(p, ["movies"]) && p != ["movies"]
    ensures Requirement(POST, p) == Authenticated
  {
    if p == ["movies", "suggest"] {
      FirstMatchIs(Rules, POST, p, 13);
    } else {
      NoRuleMatches(POST, p);
    }
  }

  /** Reading reviews is public; posting to /reviews and editing or deleting
      below it need a login. */
  lemma ReviewAccess(m: Method, p: Path)
    requires StartsWith(p, ["reviews"])
    ensures m == GET ==> Requirement(m, p) == Public
    ensures m == POST && p == ["reviews"] ==> Requirement(m, p) == Authenticated
    ensures m == PUT || m == DELETE ==> Requirement(m, p) == Authenticated
  {
    match m
    case GET => FirstMatchIs(Rules, m, p, 14);
    case POST => if p == ["reviews"] { FirstMatchIs(Rules, m, p, 15); }
    case PUT => FirstMatchIs(Rules, m, p, 16);
    case DELETE => FirstMatchIs(Rules, m, p, 17);
  }

  /** A path whose first segment no rule mentions needs a login. */
  lemma UnlistedPathsNeedLogin(m: Method, p: Path)
    requires |p| == 0 || p[0] !in {"auth", "hello", "swagger-ui", "swagger-ui.html", "v3", "api-docs",
                                   "swagger-resources", "webjars", "movies", "reviews"}
    ensures Requirement(m, p) == Authenticated
  {
    NoRuleMatches(m, p);
  }

  datatype Decision = Permit | Unauthorized | Forbidden

  /** The gate's verdict: an anonymous request to a protected route is sent to
      the authentication entry point (401); a principal without the required
      authority is denied (403). A role check looks for "ROLE_" + role name
      among the principal's authorities. */
  function Authorize(access: Access, principal: Option<Account>): (d: Decision)
    ensures d == Permit <==> access.Public? || (principal.Some? && (access.HasRole? ==> principal.value.role == access.role))
    ensures d == Unauthorized <==> !access.Public? && principal.None?
    ensures d == Forbidden <==> access.HasRole? && principal.Some? && principal.value.role != access.role
  {
    match access
    case Public => Permit
    case Authenticated => if principal.Some? then Permit else Unauthorized
    case HasRole(role) =>
      if principal.None? then Unauthorized
      else
        AuthoritiesNameRole(principal.value);
        if "ROLE_" + RoleName(role) in Authorities(principal.value) then Permit else Forbidden
  }

  /** A logged-in USER is refused every ADMIN route with 403, an anonymous
      caller with 401, and an ADMIN passes. */
  lemma AdminRoutesGate(e: Endpoint, a: Account)
    requires Expected(e) == HasRole(ADMIN)
    ensures a.role == USER ==> Authorize(Requirement(Route(e).0, Route(e).1), Some(a)) == Forbidden
    ensures a.role == ADMIN ==> Authorize(Requirement(Route(e).0, Route(e).1), Some(a)) == Permit
    ensures Authorize(Requirement(Route(e).0, Route(e).1), None) == Unauthorized
  {
    RouteRequirements(e);
  }

  /** The user-details lookup: the account whose username or email is the
      login name, or UsernameNotFound. */
  function LoadUserByUsername(s: UserRepository.Users, name: string): (r: Result<Id, Failure>)
    ensures r.Success? ==> r.value in s.rows && (s.rows[r.value].username == name || s.rows[r.value].email == name)
    ensures r == Failure(UsernameNotFound) <==> !UserRepository.ExistsByUsername(s, name) && !UserRepository.ExistsByEmail(s, name)
    ensures r.Failure? ==> r.error in {UsernameNotFound, IncorrectResultSize}
    ensures r.Success? ==> UserRepository.UsernameOrEmailKeys(s, name) == {r.value}
    ensures r == Failure(IncorrectResultSize) <==> |UserRepository.UsernameOrEmailKeys(s, name)| > 1
  {
    var found :- UserRepository.GetEntityByUsernameOrEmail(s, name);
    match found
    case None => Failure(UsernameNotFound)
    case Some(id) => Success(id)
  }

  /** The only account whose username or email is the login name is the one
      loaded. */
  lemma SingleMatchLoaded(s: UserRepository.Users, name: string, i: Id)
    requires UserRepository.UsernameOrEmailKeys(s, name) == {i}
    ensures LoadUserByUsername(s, name) == Success(i)
  {
    UserRepository.SingleMatchFound(s, name, i);
  }
}

=== FILE: state_mapper.dfy ===
/** The one-character state column of the movies table read as "available". */
module StateMapper {
  import opened Wrappers
  import JavaLang

  /** stateToBoolean: null is unavailable; otherwise "D" compared ignoring case. */
  function StateToBoolean(state: Option<string>): (b: bool)
    ensures b <==> state == Some("D") || state == Some("d")
  {
    match state
    case None => false
    case Some(s) =>
      StateDIgnoringCase(s);
      JavaLang.EqualsIgnoreCase("D", s)
  }

  /** The strings equal to "D" ignoring case are exactly "D" and "d". */
  lemma StateDIgnoringCase(s: string)
    ensures JavaLang.EqualsIgnoreCase("D", s) <==> s == "D" || s == "d"
  {
    if |s| == 1 {
      var c := s[0];
      if JavaLang.SameIgnoringCase('D', c) {
        JavaLang.LowerUpperInverse(c);
        JavaLang.LowerUpperInverse(JavaLang.UpperChar(c));
        assert c == 'D' || c == 'd';
        assert s == [c];
      }
      assert JavaLang.SameIgnoringCase('D', 'd');
    }
  }
}

=== FILE: tables.dfy ===
/** Database tables as maps from generated ids to rows, and the semantics of
    Spring Data's single-result derived queries over them. */
module Tables {
  import opened Wrappers
  import opened Exceptions

  /** Java Long identifiers. */
  type Id = int

  /** How many keys a single-result query matched. */
  datatype Match<K> = NoRow | OneRow(key: K) | ManyRows

  /** Classifies the set of matching keys. */
  function Classify<K>(ks: set<K>): (r: Match<K>)
    ensures r.NoRow? <==> ks == {}
    ensures r.OneRow? ==> ks == {r.key}
    ensures r.ManyRows? <==> |ks| > 1
  {
    if ks == {} then NoRow
    else if |ks| == 1 then
      SingletonUnique(ks);
      var k :| k in ks; OneRow(k)
    else ManyRows
  }

  lemma SingletonUnique<K>(ks: set<K>)
    requires |ks| == 1
    ensures forall a, b :: a in ks && b in ks ==> a == b
  {
    forall a, b | a in ks && b in ks
      ensures a == b
    {
      if a != b {
        assert {a, b} <= ks;
        assert |{a, b}| == 2;
        SubsetSize({a, b}, ks);
      }
    }
  }

  lemma SubsetSize<K>(a: set<K>, b: set<K>)
    requires a <= b
    ensures |a| <= |b|
  {
    assert b == a + (b - a);
  }

  lemma AllEqualAtMostOne<K>(ks: set<K>)
    requires forall a, b :: a in ks && b in ks ==> a == b
    ensures |ks| <= 1
  {
    if ks != {} {
      var a :| a in ks;
      assert ks == {a};
    }
  }

  /** A query returning Optional: empty when nothing matches, the row's key when
      exactly one does, IncorrectResultSizeDataAccessException otherwise. */
  function FindOne<K>(ks: set<K>): (r: Result<Option<K>, Failure>)
    ensures r == Success(None) <==> ks == {}
    ensures r.Success? && r.value.Some? ==> ks == {r.value.value}
    ensures r.Failure? <==> |ks| > 1
    ensures r.Failure? ==> r.error == IncorrectResultSize
  {
    match Classify(ks)
    case NoRow => Success(None)
    case OneRow(k) => Success(Some(k))
    case ManyRows => Failure(IncorrectResultSize)
  }

}

=== FILE: tmdb_service.dfy ===
/** The parts of the TMDB client that are not HTTP: page defaulting and the
    absolute image URLs built from the relative paths TMDB returns. */
module TmdbService {
  import opened Wrappers

  /** The image fields shared by search results and movie details. */
  datatype Images = Images(
    posterPath: Option<string>,
    backdropPath: Option<string>,
    posterUrl: Option<string>,
    backdropUrl: Option<string>)

  /** One search result. */
  datatype TmdbMovie = TmdbMovie(id: Option<int>, title: Option<string>, images: Images)

  /** A page of search results as TMDB returns it; the result list may be null. */
  datatype SearchResponse = SearchResponse(
    page: Option<int>,
    totalResults: Option<int>,
    totalPages: Option<int>,
    results: Option<seq<TmdbMovie>>)

  /** One genre of a movie's details. */
  datatype TmdbGenre = TmdbGenre(id: Option<int>, name: Option<string>)

  /** The details TMDB returns for one movie, reduced to the fields the import
      reads; the release date is the text TMDB sent. */
  datatype TmdbDetails = TmdbDetails(
    id: Option<int>,
    title: Option<string>,
    originalTitle: Option<string>,
    overview: Option<string>,
    images: Images,
    releaseDate: Option<string>,
    voteCount: Option<int>,
    runtime: Option<int>,
    genres: Option<seq<TmdbGenre>>)

  /** The size segments the two image kinds are served at. */
  const PosterSize: string := "/w500"
  const BackdropSize: string := "/original"

  /** A missing page or a page below 1 becomes 1. */
  function NormalizePage(page: Option<int>): (p: int)
    ensures p >= 1
    ensures page.Some? && page.value >= 1 ==> p == page.value
    ensures page.None? || page.value < 1 ==> p == 1
  {
    if page.None? || page.value < 1 then 1 else page.value
  }

  /** A normalised page is left alone by a second normalisation. */
  lemma NormalizePageIdempotent(page: Option<int>)
    ensures NormalizePage(Some(NormalizePage(page))) == NormalizePage(page)
  {
  }

  /** setImageUrls / setDetailImageUrls: each URL is the image base, the size
      segment and the path, when the path is present; otherwise the URL is
      left as it was. The paths never change. */
  function SetImageUrls(img: Images, imageBaseUrl: string): (r: Images)
    ensures r.posterPath == img.posterPath && r.backdropPath == img.backdropPath
    ensures r.posterUrl == (if img.posterPath.Some? then Some(imageBaseUrl + PosterSize + img.posterPath.value)
                            else img.posterUrl)
    ensures r.backdropUrl == (if img.backdropPath.Some? then Some(imageBaseUrl + BackdropSize + img.backdropPath.value)
                              else img.backdropUrl)
  {
    img.(posterUrl := if img.posterPath.Some? then Some(imageBaseUrl + PosterSize + img.posterPath.value) else img.posterUrl,
         backdropUrl := if img.backdropPath.Some? then Some(imageBaseUrl + BackdropSize + img.backdropPath.value) else img.backdropUrl)
  }

  /** Building the URLs twice gives what building them once gives. */
  lemma SetImageUrlsIdempotent(img: Images, imageBaseUrl: string)
    ensures SetImageUrls(SetImageUrls(img, imageBaseUrl), imageBaseUrl) == SetImageUrls(img, imageBaseUrl)
  {
  }

  /** A built URL ends with the path it was built from, after the size segment. */
  lemma PosterUrlEndsWithPath(img: Images, imageBaseUrl: string)
    requires img.posterPath.Some?
    ensures var url := SetImageUrls(img, imageBaseUrl).posterUrl.value;
            && |url| == |imageBaseUrl| + |PosterSize| + |img.posterPath.value|
            && url[..|imageBaseUrl|] == imageBaseUrl
            && url[|imageBaseUrl| + |PosterSize|..] == img.posterPath.value
  {
    var url := SetImageUrls(img, imageBaseUrl).posterUrl.value;
    assert url == (imageBaseUrl + PosterSize) + img.posterPath.value;
    assert (imageBaseUrl + PosterSize)[..|imageBaseUrl|] == imageBaseUrl;
  }

  /** The URLs of every search result, in order. */
  method SetAllImageUrls(movies: seq<TmdbMovie>, imageBaseUrl: string) returns (out: seq<TmdbMovie>)
    ensures |out| == |movies|
    ensures forall i :: 0 <= i < |movies| ==>
              out[i] == movies[i].(images := SetImageUrls(movies[i].images, imageBaseUrl))
  {
    out := [];
    var k := 0;
    while k < |movies|
      invariant 0 <= k <= |movies|
      invariant |out| == k
      invariant forall i :: 0 <= i < k ==> out[i] == movies[i].(images := SetImageUrls(movies[i].images, imageBaseUrl))
    {
      out := out + [movies[k].(images := SetImageUrls(movies[k].images, imageBaseUrl))];
      k := k + 1;
    }
  }

  /** What the list endpoints do with TMDB's answer: a null answer, or one with
      a null result list, is passed back as it is; otherwise every result gets
      its image URLs, and decorating the result again would leave every
      result as it is. */
  method DecorateResponse(response: Option<SearchResponse>, imageBaseUrl: string) returns (r: Option<SearchResponse>)
    ensures response.None? || response.value.results.None? ==> r == response
    ensures response.Some? && response.value.results.Some? ==>
              && r.Some?
              && r.value.(results := response.value.results) == response.value
              && r.value.results.Some?
              && |r.value.results.value| == |response.value.results.value|
              && forall i :: 0 <= i < |r.value.results.value| ==>
                   r.value.results.value[i].images == SetImageUrls(response.value.results.value[i].images, imageBaseUrl)
    ensures response.Some? && response.value.results.Some? ==>
              forall i :: 0 <= i < |r.value.results.value| ==>
                SetImageUrls(r.value.results.value[i].images, imageBaseUrl) == r.value.results.value[i].images
  {
    if response.None? || response.value.results.None? {
      r := response;
    } else {
      var decorated := SetAllImageUrls(response.value.results.value, imageBaseUrl);
      r := Some(response.value.(results := Some(decorated)));
      forall i | 0 <= i < |decorated|
        ensures SetImageUrls(decorated[i].images, imageBaseUrl) == decorated[i].images
      {
        SetImageUrlsIdempotent(response.value.results.value[i].images, imageBaseUrl);
      }
    }
  }

  /** getMovieDetails, given TMDB's answer: a null answer stays null, otherwise
      the image URLs are built and nothing else changes. */
  function GetMovieDetails(answer: Option<TmdbDetails>, imageBaseUrl: string): (r: Option<TmdbDetails>)
    ensures r.None? <==> answer.None?
    ensures r.Some? ==> r.value.(images := answer.value.images) == answer.value
                        && r.value.images == SetImageUrls(answer.value.images, imageBaseUrl)
  {
    match answer
    case None => None
    case Some(d) => Some(d.(images := SetImageUrls(d.images, imageBaseUrl)))
  }

  /** Asking for the details again with the same base changes nothing more:
      the URLs built the first time are the ones built the second time. */
  lemma GetMovieDetailsIdempotent(answer: Option<TmdbDetails>, imageBaseUrl: string)
    ensures GetMovieDetails(GetMovieDetails(answer, imageBaseUrl), imageBaseUrl) == GetMovieDetails(answer, imageBaseUrl)
  {
    if answer.Some? {
      SetImageUrlsIdempotent(answer.value.images, imageBaseUrl);
    }
  }
}

=== FILE: user_entity.dfy ===
/** A row of the accounts table, which doubles as the Spring Security principal. */
module UserEntity {
  import opened Wrappers

  datatype Role = USER | ADMIN

  /** Enum.name(). */
  function RoleName(r: Role): string {
    match r
    case USER => "USER"
    case ADMIN => "ADMIN"
  }

  /** An account. The identifier is the key the table stores it under; the
      password is the encoder's output, never the plain text. */
  datatype Account = Account(
    username: string,
    email: string,
    password: string,
    fullName: Option<string>,
    role: Role,
    createdAt: Option<int>,
    lastAccess: Option<int>,
    active: bool,
    emailVerified: bool)

  /** `new UserEntity()` followed by the four setters for the caller-supplied
      fields: everything else keeps its field initialiser. */
  function NewEntity(username: string, email: string, password: string, fullName: Option<string>): (a: Account)
    ensures a.username == username && a.email == email && a.password == password && a.fullName == fullName
    ensures a.role == USER && a.active && !a.emailVerified
    ensures a.createdAt.None? && a.lastAccess.None?
  {
    Account(username, email, password, fullName, USER, None, None, true, false)
  }

  /** The onCreate hook: the creation time is stamped when the row is first inserted. */
  function OnCreate(a: Account, now: int): (b: Account)
    ensures b.createdAt == Some(now)
    ensures b.(createdAt := a.createdAt) == a
  {
    a.(createdAt := Some(now))
  }

  /** isEnabled. */
  predicate IsEnabled(a: Account) {
    a.active && a.emailVerified
  }

  /** isAccountNonExpired, isAccountNonLocked and isCredentialsNonExpired are
      constantly true. */
  predicate IsAccountNonExpired(a: Account) { true }
  predicate IsAccountNonLocked(a: Account) { true }
  predicate IsCredentialsNonExpired(a: Account) { true }

  /** The status checks an authentication provider runs against a principal. */
  predicate PassesStatusChecks(a: Account) {
    IsAccountNonLocked(a) && IsEnabled(a) && IsAccountNonExpired(a) && IsCredentialsNonExpired(a)
  }

  /** Since three of the four flags are constant, only isEnabled can stop an account. */
  lemma StatusChecksAreEnabled(a: Account)
    ensures PassesStatusChecks(a) <==> a.active && a.emailVerified
  {
  }

  /** getAuthorities: a single authority derived from the role. */
  function Authorities(a: Account): (r: seq<string>)
    ensures |r| == 1
  {
    ["ROLE_" + RoleName(a.role)]
  }

  /** hasRole("ADMIN") holds of exactly the ADMIN accounts, and hasRole("USER")
      of exactly the USER accounts. */
  lemma AuthoritiesNameRole(a: Account)
    ensures "ROLE_ADMIN" in Authorities(a) <==> a.role == ADMIN
    ensures "ROLE_USER" in Authorities(a) <==> a.role == USER
  {
    assert |"ROLE_USER"| != |"ROLE_ADMIN"|;
    if a.role == USER {
      assert "ROLE_" + "USER" == "ROLE_USER";
      assert Authorities(a) == ["ROLE_USER"];
    } else {
      assert "ROLE_" + "ADMIN" == "ROLE_ADMIN";
      assert Authorities(a) == ["ROLE_ADMIN"];
    }
  }

  /** A freshly constructed entity cannot log in until its email is verified. */
  lemma NewEntityDisabled(username: string, email: string, password: string, fullName: Option<string>)
    ensures !PassesStatusChecks(NewEntity(username, email, password, fullName))
  {
  }
}

=== FILE: user_repository.dfy ===
/** The accounts table: lookups that answer null when nothing matches, the
    existence checks registration relies on, and the six-field update. The
    username and email columns are unique, so the database itself refuses a
    write that would duplicate either. */
module UserRepository {
  import opened Wrappers
  import opened Exceptions
  import opened Tables
  import opened UserEntity

  datatype Users = Users(rows: map<Id, Account>, nextId: Id)

  /** What the repository hands out: the account without its password. */
  datatype UserDto = UserDto(
    id: Id,
    username: string,
    email: string,
    fullName: Option<string>,
    role: Role,
    createdAt: Option<int>,
    lastAccess: Option<int>,
    active: bool,
    emailVerified: bool)

  function ToDto(id: Id, a: Account): (d: UserDto)
    ensures d.id == id && d.username == a.username && d.email == a.email && d.fullName == a.fullName
    ensures d.role == a.role && d.createdAt == a.createdAt && d.lastAccess == a.lastAccess
    ensures d.active == a.active && d.emailVerified == a.emailVerified
  {
    UserDto(id, a.username, a.email, a.fullName, a.role, a.createdAt, a.lastAccess, a.active, a.emailVerified)
  }

  /** No two accounts share a username, no two share an email. */
  ghost predicate UniqueColumns(rows: map<Id, Account>) {
    && (forall i, j :: i in rows && j in rows && rows[i].username == rows[j].username ==> i == j)
    && (forall i, j :: i in rows && j in rows && rows[i].email == rows[j].email ==> i == j)
  }

  ghost predicate Valid(s: Users) {
    UniqueColumns(s.rows) && forall i :: i in s.rows ==> i < s.nextId
  }

  function UsernameKeys(s: Users, username: string): set<Id> {
    set i | i in s.rows && s.rows[i].username == username
  }

  function EmailKeys(s: Users, email: string): set<Id> {
    set i | i in s.rows && s.rows[i].email == email
  }

  function UsernameOrEmailKeys(s: Users, v: string): set<Id> {
    set i | i in s.rows && (s.rows[i].username == v || s.rows[i].email == v)
  }

  function ExistsByUsername(s: Users, username: string): bool {
    UsernameKeys(s, username) != {}
  }

  function ExistsByEmail(s: Users, email: string): bool {
    EmailKeys(s, email) != {}
  }

  /** getById: null for an unknown id. */
  function GetById(s: Users, id: Id): (r: Option<UserDto>)
    ensures r.None? <==> id !in s.rows
    ensures r.Some? ==> r.value == ToDto(id, s.rows[id])
  {
    if id in s.rows then Some(ToDto(id, s.rows[id])) else None
  }

  /** findByUsername as a key. */
  function FindByUsername(s: Users, username: string): (r: Result<Option<Id>, Failure>)
    ensures r == Success(None) <==> !ExistsByUsername(s, username)
    ensures r.Success? && r.value.Some? ==> r.value.value in s.rows && s.rows[r.value.value].username == username
    ensures Valid(s) ==> r.Success?
  {
    UniqueKeys(s, username, "");
    FindOne(UsernameKeys(s, username))
  }

  /** getByUsername: null for an unknown username. */
  function GetByUsername(s: Users, username: string): (r: Result<Option<UserDto>, Failure>)
    ensures r == Success(None) <==> !ExistsByUsername(s, username)
    ensures r.Success? && r.value.Some? ==> r.value.value.username == username && r.value.value.id in s.rows
    ensures r.Success? && r.value.Some? ==>
            UsernameKeys(s, username) == {r.value.value.id} && r.value.value == ToDto(r.value.value.id, s.rows[r.value.value.id])
    ensures Valid(s) ==> r.Success?
  {
    var found :- FindByUsername(s, username);
    match found
    case None => Success(None)
    case Some(i) => Success(Some(ToDto(i, s.rows[i])))
  }

  /** getByEmail: null for an unknown email. */
  function GetByEmail(s: Users, email: string): (r: Result<Option<UserDto>, Failure>)
    ensures r == Success(None) <==> !ExistsByEmail(s, email)
    ensures r.Success? && r.value.Some? ==> r.value.value.email == email && r.value.value.id in s.rows
    ensures r.Success? && r.value.Some? ==>
            EmailKeys(s, email) == {r.value.value.id} && r.value.value == ToDto(r.value.value.id, s.rows[r.value.value.id])
    ensures Valid(s) ==> r.Success?
  {
    UniqueKeys(s, "", email);
    var found :- FindOne(EmailKeys(s, email));
    match found
    case None => Success(None)
    case Some(i) =>
      assert i in EmailKeys(s, email);
      Success(Some(ToDto(i, s.rows[i])))
  }

  /** getEntityByUsernameOrEmail: the one account whose username or whose email
      is `v`, or null. A value that is one account's username and another's
      email matches two rows and the query fails. */
  function GetEntityByUsernameOrEmail(s: Users, v: string): (r: Result<Option<Id>, Failure>)
    ensures r == Success(None) <==> !ExistsByUsername(s, v) && !ExistsByEmail(s, v)
    ensures r.Success? && r.value.Some? ==>
            r.value.value in s.rows && (s.rows[r.value.value].username == v || s.rows[r.value.value].email == v)
    ensures r.Success? && r.value.Some? ==> UsernameOrEmailKeys(s, v) == {r.value.value}
    ensures r.Failure? <==> |UsernameOrEmailKeys(s, v)| > 1
    ensures r.Failure? ==> r.error == IncorrectResultSize
  {
    var found :- FindOne(UsernameOrEmailKeys(s, v));
    assert UsernameKeys(s, v) + EmailKeys(s, v) == UsernameOrEmailKeys(s, v);
    match found
    case None => Success(None)
    case Some(i) =>
      assert i in UsernameOrEmailKeys(s, v);
      Success(Some(i))
  }

  /** The lookup hands back the account when it is the only one whose
      username or email is the value. */
  lemma SingleMatchFound(s: Users, v: string, i: Id)
    requires UsernameOrEmailKeys(s, v) == {i}
    ensures GetEntityByUsernameOrEmail(s, v) == Success(Some(i))
  {
  }

  /** Under the invariant a username, and an email, selects at most one account. */
  lemma UniqueKeys(s: Users, username: string, email: string)
    ensures Valid(s) ==> |UsernameKeys(s, username)| <= 1 && |EmailKeys(s, email)| <= 1
  {
    if !Valid(s) { return; }
    var us := UsernameKeys(s, username);
    forall a, b | a in us && b in us ensures a == b {
      assert s.rows[a].username == s.rows[b].username;
    }
    AllEqualAtMostOne(us);
    var es := EmailKeys(s, email);
    forall a, b | a in es && b in es ensures a == b {
      assert s.rows[a].email == s.rows[b].email;
    }
    AllEqualAtMostOne(es);
  }

  /** Another row already holds the username or the email `a` would write at `id`. */
  function Clashes(s: Users, id: Id, a: Account): set<Id> {
    set j | j in s.rows && j != id && (s.rows[j].username == a.username || s.rows[j].email == a.email)
  }

  /** Writing a row at `id`: refused by the unique columns when another row
      already holds the username or the email, stored otherwise. */
  function Put(s: Users, id: Id, a: Account): (r: Result<Users, Failure>)
    ensures r.Failure? <==> Clashes(s, id, a) != {}
    ensures r.Failure? ==> r.error == UniqueConstraintViolation
    ensures r.Success? ==> r.value.rows == s.rows[id := a] && r.value.nextId == s.nextId
    ensures r.Success? && UniqueColumns(s.rows) ==> UniqueColumns(r.value.rows)
  {
    if Clashes(s, id, a) != {} then Failure(UniqueConstraintViolation)
    else
      var s' := s.(rows := s.rows[id := a]);
      ClashMembers(s, id, a);
      Success(s')
  }

  /** Every row holding the username or the email, other than `id`, is a clash. */
  lemma ClashMembers(s: Users, id: Id, a: Account)
    ensures forall j :: j in s.rows && j != id && (s.rows[j].username == a.username || s.rows[j].email == a.email)
                        ==> j in Clashes(s, id, a)
  {
  }

  /** Saving a new entity: the creation hook stamps `now`, the database assigns
      the next identity value. */
  function Insert(s: Users, a: Account, now: int): (r: Result<(Users, Id), Failure>)
    ensures Valid(s) ==> (r.Failure? <==> ExistsByUsername(s, a.username) || ExistsByEmail(s, a.email))
    ensures r.Failure? ==> r.error == UniqueConstraintViolation
    ensures r.Success? ==>
            && r.value.1 == s.nextId
            && r.value.0.rows == s.rows[r.value.1 := OnCreate(a, now)]
            && r.value.0.nextId == s.nextId + 1
    ensures r.Success? && Valid(s) ==> r.value.1 !in s.rows && Valid(r.value.0)
  {
    var id := s.nextId;
    var stamped := OnCreate(a, now);
    assert Valid(s) ==> Clashes(s, id, stamped) == UsernameKeys(s, a.username) + EmailKeys(s, a.email);
    var s' :- Put(s, id, stamped);
    Success((s'.(nextId := id + 1), id))
  }

  /** update: null for an unknown id; otherwise exactly username, email, full
      name, role, active and email-verified are copied from the record, and the
      password, creation time and last access stay as stored. */
  function Update(s: Users, dto: UserDto): (r: Result<(Users, Option<UserDto>), Failure>)
    ensures dto.id !in s.rows ==> r == Success((s, None))
    ensures r.Success? && dto.id in s.rows ==>
            var (s', out) := r.value;
            var before := s.rows[dto.id];
            && dto.id in s'.rows
            && var after := s'.rows[dto.id];
            && s'.rows == s.rows[dto.id := after]
            && s'.nextId == s.nextId
            && after.username == dto.username && after.email == dto.email
            && after.fullName == dto.fullName && after.role == dto.role
            && after.active == dto.active && after.emailVerified == dto.emailVerified
            && after.password == before.password && after.createdAt == before.createdAt
            && after.lastAccess == before.lastAccess
            && out == Some(ToDto(dto.id, after))
    ensures r.Failure? <==>
            dto.id in s.rows
            && exists j :: j in s.rows && j != dto.id && (s.rows[j].username == dto.username || s.rows[j].email == dto.email)
    ensures r.Failure? ==> r.error == UniqueConstraintViolation
    ensures r.Success? && Valid(s) ==> Valid(r.value.0)
  {
    if dto.id !in s.rows then Success((s, None))
    else
      var before := s.rows[dto.id];
      var after := before.(username := dto.username, email := dto.email, fullName := dto.fullName,
                           role := dto.role, active := dto.active, emailVerified := dto.emailVerified);
      assert forall j :: j in s.rows && j != dto.id && (s.rows[j].username == dto.username || s.rows[j].email == dto.email)
                         ==> j in Clashes(s, dto.id, after);
      var s' :- Put(s, dto.id, after);
      Success((s', Some(ToDto(dto.id, after))))
  }

  /** Rewriting a stored row with its own username and email never clashes,
      and the table keeps its invariant. */
  lemma PutSameKeys(s: Users, id: Id, a: Account)
    requires Valid(s) && id in s.rows
    requires a.username == s.rows[id].username && a.email == s.rows[id].email
    ensures Put(s, id, a) == Success(s.(rows := s.rows[id := a]))
    ensures Valid(s.(rows := s.rows[id := a]))
  {
    assert Clashes(s, id, a) == {} by {
      forall j | j in s.rows && j != id
        ensures s.rows[j].username != a.username && s.rows[j].email != a.email
      {
      }
    }
  }

  /** Writing a detached copy of an account's own values back (whatever its
      last access says) leaves the table as it was, since the update does not
      copy the last access. */
  lemma UpdateWithOwnValuesChangesNothing(s: Users, id: Id, lastAccess: Option<int>)
    requires Valid(s) && id in s.rows
    ensures Update(s, ToDto(id, s.rows[id].(lastAccess := lastAccess))) == Success((s, Some(ToDto(id, s.rows[id]))))
  {
    var a := s.rows[id];
    PutSameKeys(s, id, a);
    assert s.rows[id := a] == s.rows;
  }

  /** The existence checks agree with the lookups. */
  lemma ExistsAgreesWithLookup(s: Users, username: string, email: string)
    requires Valid(s)
    ensures ExistsByUsername(s, username) <==> GetByUsername(s, username).Success? && GetByUsername(s, username).value.Some?
    ensures ExistsByEmail(s, email) <==> GetByEmail(s, email).Success? && GetByEmail(s, email).value.Some?
  {
  }
}

=== FILE: user_service.dfy ===
/** Profile operations on the current user: lookup by username or id, the
    email/full-name edit, and the user's reviews. */
module UserService {
  import opened Wrappers
  import opened Exceptions
  import opened Tables
  import opened UserEntity
  import opened UserRepository
  import ReviewEntity
  import ReviewRepository

  /** getCurrentUser. */
  function GetCurrentUser(s: Users, username: string): (r: Result<UserDto, Failure>)
    ensures r.Success? ==> r.value.username == username && r.value.id in s.rows
                           && r.value == ToDto(r.value.id, s.rows[r.value.id])
    ensures r == Failure(UserNotFound) <==> !ExistsByUsername(s, username)
    ensures Valid(s) ==> (r.Success? <==> ExistsByUsername(s, username))
  {
    var found :- GetByUsername(s, username);
    match found
    case None => Failure(UserNotFound)
    case Some(dto) => Success(dto)
  }

  /** getUserById. */
  function GetUserById(s: Users, id: Id): (r: Result<UserDto, Failure>)
    ensures r.Failure? <==> id !in s.rows
    ensures r.Failure? ==> r.error == UserNotFound
    ensures r.Success? ==> r.value == ToDto(id, s.rows[id])
  {
    match GetById(s, id)
    case None => Failure(UserNotFound)
    case Some(dto) => Success(dto)
  }

  /** The edit a profile update asks for; a missing field is left alone. */
  datatype ProfileEdit = ProfileEdit(fullName: Option<string>, email: Option<string>)

  /** The edit asks for an email different from the account's. */
  predicate ChangesEmail(a: Account, edit: ProfileEdit) {
    edit.email.Some? && edit.email.value != a.email
  }

  /** The account after the edit: a new email only when it differs, a new full
      name only when one is given, nothing else. */
  function Edited(a: Account, edit: ProfileEdit): (b: Account)
    ensures b.email == (if ChangesEmail(a, edit) then edit.email.value else a.email)
    ensures b.fullName == (if edit.fullName.Some? then edit.fullName else a.fullName)
    ensures b.(email := a.email, fullName := a.fullName) == a
  {
    a.(email := if ChangesEmail(a, edit) then edit.email.value else a.email,
       fullName := if edit.fullName.Some? then edit.fullName else a.fullName)
  }

  /** updateProfile: the account must exist; a changed email must be free;
      then the edited entity is saved whole. */
  function UpdateProfile(s: Users, username: string, edit: ProfileEdit): (r: Result<(Users, UserDto), Failure>)
    ensures FindByUsername(s, username) == Success(None) ==> r == Failure(UserNotFound)
    ensures FindByUsername(s, username).Success? && FindByUsername(s, username).value.Some? ==>
            var id := FindByUsername(s, username).value.value;
            && (ChangesEmail(s.rows[id], edit) && ExistsByEmail(s, edit.email.value) ==> r == Failure(UserAlreadyExists))
            && (r.Success? ==> r.value == (s.(rows := s.rows[id := Edited(s.rows[id], edit)]),
                                           ToDto(id, Edited(s.rows[id], edit))))
    ensures r.Success? ==> FindByUsername(s, username).Success? && FindByUsername(s, username).value.Some?
    ensures r.Failure? ==> r.error in {UserNotFound, UserAlreadyExists, IncorrectResultSize, UniqueConstraintViolation}
  {
    var found :- FindByUsername(s, username);
    match found
    case None => Failure(UserNotFound)
    case Some(id) =>
      var a := s.rows[id];
      if ChangesEmail(a, edit) && ExistsByEmail(s, edit.email.value) then Failure(UserAlreadyExists)
      else
        var b := Edited(a, edit);
        var s' :- Put(s, id, b);
        Success((s', ToDto(id, b)))
  }

  /** On a valid table the edit succeeds exactly when the account exists and
      any new email is free, keeps usernames and emails unique, and changes no
      other account and no other field; re-submitting the current email never
      trips the uniqueness check. */
  lemma UpdateProfileSucceedsIff(s: Users, username: string, edit: ProfileEdit)
    requires Valid(s)
    ensures var r := UpdateProfile(s, username, edit);
            && (r.Success? <==> && ExistsByUsername(s, username)
                                && var id := FindByUsername(s, username).value.value;
                                && !(ChangesEmail(s.rows[id], edit) && ExistsByEmail(s, edit.email.value)))
            && (r.Success? ==> Valid(r.value.0))
            && (edit.email.Some? && ExistsByUsername(s, username)
                && s.rows[FindByUsername(s, username).value.value].email == edit.email.value
                ==> r.Success?)
  {
    var found := FindByUsername(s, username);
    if found.Success? && found.value.Some? {
      var id := found.value.value;
      var a := s.rows[id];
      var b := Edited(a, edit);
      if !(ChangesEmail(a, edit) && ExistsByEmail(s, edit.email.value)) {
        forall j | j in s.rows && j != id
          ensures s.rows[j].username != b.username && s.rows[j].email != b.email
        {
          if ChangesEmail(a, edit) {
            assert j !in EmailKeys(s, edit.email.value);
          }
        }
        assert Clashes(s, id, b) == {};
      }
    }
  }

  /** getUserReviews: the user must exist; then every review that user wrote. */
  function GetUserReviews(s: Users, reviews: ReviewRepository.Reviews, userId: Id)
    : (r: Result<map<Id, ReviewEntity.Review>, Failure>)
    ensures r.Failure? <==> userId !in s.rows
    ensures r.Failure? ==> r.error == UserNotFound
    ensures r.Success? ==> forall i :: i in r.value <==> i in reviews.rows && reviews.rows[i].userId == userId
    ensures r.Success? ==> forall i :: i in r.value ==> r.value[i] == reviews.rows[i]
  {
    if GetById(s, userId).None? then Failure(UserNotFound)
    else Success(ReviewRepository.ByUserId(reviews, userId))
  }

  /** A review the user files shows up in that user's listing under its new
      id, beside the reviews listed before; the listing had no entry there. */
  lemma FiledReviewIsListed(s: Users, reviews: ReviewRepository.Reviews, movieIds: set<Id>, userId: Id,
                            movieId: Id, rating: Option<int>, comment: Option<string>, now: int)
    requires ReviewRepository.Valid(reviews)
    requires ReviewRepository.Create(reviews, s.rows.Keys, movieIds, userId, movieId, rating, comment, now).Success?
    ensures var (reviews', id) := ReviewRepository.Create(reviews, s.rows.Keys, movieIds, userId, movieId, rating, comment, now).value;
            && GetUserReviews(s, reviews, userId).Success?
            && id !in GetUserReviews(s, reviews, userId).value
            && GetUserReviews(s, reviews', userId)
               == Success(GetUserReviews(s, reviews, userId).value[id := ReviewEntity.Review(userId, movieId, rating.value, comment, now, now)])
  {
    ReviewRepository.CreateListsForAuthor(reviews, s.rows.Keys, movieIds, userId, movieId, rating, comment, now, userId);
  }
}

=== FILE: wrappers.dfy ===
/** Optional values (Java's nullable references) and results that either carry
    a value or the exception the Java code would have thrown. */
module Wrappers {

  /** A Java reference that may be null. */
  datatype Option<+T> = None | Some(value: T) {

    /** The value, or `default` when null. */
    function GetOr(default: T): T {
      match this
      case Some(v) => v
      case None => default
    }
  }

  /** A call that returned `value` or threw `error`. */
  datatype Result<+T, +E> = Success(value: T) | Failure(error: E) {

    predicate IsFailure() {
      Failure?
    }

    function PropagateFailure<U>(): Result<U, E>
      requires Failure?
    {
      Failure(error)
    }

    function Extract(): T
      requires Success?
    {
      value
    }
  }
}
